=== FILE: README.md ===
# interval_screen_capture: the capture loop in Dafny

interval_screen_capture is an Electron tray application. It records the whole
desktop with ffmpeg in fixed-length chunks during configured hours. It moves
each finished chunk from a temp directory to a storage directory and deletes
old recordings every day. There are two variants of the main process:

- `index.js` is the current one. It has temp and storage directories, a
  scale factor with even rounding, and lock/unlock handling.
- `background.js` is the older one. It has one directory, a fixed
  1280x720 fit, and no lock handling.

This project models the decision-making of both capture loops as pure
functions. Clock readings, display lists, file-system outcomes and ffmpeg
exits are passed in as plain values. Timers and child processes come back
as actions.

| module | file | models |
|---|---|---|
| `Wrappers` | wrappers.dfy | `Option`, for the values the program holds as `null` |
| `Settings` | settings.dfy | the configuration record, its first-run defaults, `isWithinRecordingHours`, and the guard of `startRecording` |
| `Timestamp` | timestamp.dfy | `getFormattedDateTime`, with a parser and a round-trip proof; the `recording-<ts>.mp4` name |
| `Geometry` | geometry.dfy | `getCombinedScreenResolution`, `Math.round`, the even-number bump of index.js, and `calculateAspectRatioFit` |
| `Paths` | paths.dfy | `path.join`, and `String.prototype.replace` with a string pattern, including its `$` substitution codes |
| `FileStore` | filestore.dfy | a file system as `map<path, bytes>`; `fs.copyFile`, `fs.unlink` and `moveRecordingToStorage` |
| `Retention` | retention.dfy | `deleteOldRecordings` as one pass over the directory listing |
| `Scheduler` | scheduler.dfy | the index.js loop as `Step(config, state, event) -> (state, actions)` |
| `SchedulerFacts` | scheduler_facts.dfy | what the index.js loop does over short event sequences |
| `Legacy` | legacy.dfy | the background.js loop as a step function |
| `Startup` | startup.dfy | the boot order and the sweep cadence of each variant |

The index.js scheduler state is `{current, tempPath, live, nextId}`:

- `current` is `currentRecordingProcess`.
- `tempPath` is `tempRecordingPath`.
- `live` holds the children that have not exited yet. For each one it keeps
  the storage path its callback captured and the number of lock listeners
  attached to it.
- `nextId` numbers the children.

The events are `Timer`, `Unlock`, `Lock` and `Exit(id, error)`. One `Exit`
event runs the child's `close` listeners in the order Node registers them.
First comes the completion callback `exec` attached at spawn time. Then comes
one `stopRecording` listener per lock received while the child was current.
So the "completion" and "close" of the program are both steps of `Exit`.

`SchedulerFacts.Started(cfg, st, name)` is the state a start in an open
window leaves behind when the recording is called `name`. `StartedState`
shows that a timer or an unlock reaches it with `name` the
`recording-<ts>.mp4` of the clock reading. The lock and overlap scenarios
are stated from `Started` states for any name, so they hold whatever the
clock said.

Where the program behaves in ways a reader might not expect, the model
follows the code:

- Unlock calls `startRecording` with no guard. Two ffmpeg children can
  therefore run at once, so "at most one session" is not an invariant.
  `UnlockStartsSecondSession` shows an unlock adding a child to those running.
- In index.js an ffmpeg error ends that session's chain of timers. The
  callback neither moves nor re-arms.
- A screen lock does not pause the loop. ffmpeg usually exits cleanly after
  `q`, and the completion callback runs before the lock listener. So the
  one-second re-arm is still issued and recording resumes while the screen
  is locked (`LockedSessionKeepsLooping`).
- `currentRecordingProcess` is never reset on natural completion. A later
  lock sends `q` to an exited child.
- The completion callback reads the module-level `tempRecordingPath` and
  the storage path it captured. With overlapping sessions it moves the wrong
  file (`OverlapMovesWrongFile`). With the temp path already cleared by a
  lock listener it calls `fs.copyFile(null, …)`, which throws before
  re-arming (`OverlapAfterLockThrows`).
- No variant checks that a file is non-empty before moving it.
- background.js has no start-up sweep. index.js has one.
- The default `stopHour` of index.js is 24, outside 0..23.
- The even-number bump applies only to the index.js scale factor. The
  background.js 1280x720 fit does no even rounding.

## Model

| member | source | states |
|---|---|---|
| Settings.IsWithinRecordingHours | index.js:87-91 | the hour is inside the half-open window [startHour, stopHour) |
| Settings.Decide | index.js:141-150 | a session starts exactly when the configuration is active and the hour is in [startHour, stopHour); otherwise the next check is `videoDuration * 1000` ms away |
| Settings.DefaultWindowCoversEveryHour | index.js:65-91 | with the default window 0..24 every hour 0..23 is inside and the default configuration records |
| Settings.EmptyWindowNeverRecords | index.js:87-91 | if startHour ≥ stopHour no hour is inside the window and the decision is always to wait |
| Settings.InactiveNeverRecords | index.js:141-149 | an inactive configuration never records, at any hour |
| Settings.OfficeHoursScenario | background.js:80-90 | window 8..18, 300 s: hours 8 and 9 record, hours 18 and 20 wait 300 000 ms |
| Timestamp.DecimalString | index.js:95-100 | `String(n)` is a non-empty digit string, one digit long exactly when n < 10, with no leading zero |
| Timestamp.DecimalRoundTrip | index.js:95-101 | reading the decimal string of n back yields n |
| Timestamp.PadStart2 | index.js:96-100 | padding yields length max(2, len), the original string as suffix, zeros before it |
| Timestamp.TwoDigitsShape | index.js:96-100 | each field below 100 becomes exactly its tens digit and units digit |
| Timestamp.ParseSplit | index.js:101 | the year part and the fixed 15-character tail of a timestamp are separable |
| Timestamp.Format | index.js:93-102 | with every field below 100 the timestamp is the year followed by `-MM-DD_HH-MM-SS`, each field its tens digit then its units digit |
| Timestamp.ParseFormat | index.js:93-102 | parsing a formatted clock reading gives that reading back (round trip) |
| Timestamp.FormatLength | index.js:93-102 | the formatted timestamp is the year's length plus 15 characters |
| Timestamp.FormatInjective | background.js:40-49 | two valid clock readings format to the same string exactly when they are equal |
| Timestamp.RecordingFileNameInjective | index.js:167-175 | two valid clock readings give the same `recording-<ts>.mp4` name exactly when they are equal |
| Geometry.Accumulate | index.js:119-128 | the forEach accumulation adds every width and ends at a height that bounds every display and is either the start value or some display's height |
| Geometry.CombinedResolution | index.js:114-130 | combined width is the sum of the widths; combined height is ≥ every display's height, and is 0 or one display's height; (0, 0) for no displays |
| Geometry.TwoMonitorExample | background.js:57-70 | 1920x1080 beside 1280x1024 combine to 3200x1080 |
| Geometry.JsRound | index.js:158-159 | `Math.round(x)` lies in (x − ½, x + ½] |
| Geometry.EvenUp | index.js:160-165 | the bumped value is even and exceeds the input by at most 1 |
| Geometry.EvenUpLeast | index.js:160-165 | the bumped value is the least even number ≥ the input, and an even input is unchanged |
| Geometry.ScaledDimension | index.js:157-165 | a scaled dimension is even and exceeds `Math.round(dim * scale)` by at most 1 |
| Geometry.ScaledSize | index.js:155-165 | both scaled dimensions are even and each within 1 above its rounded value |
| Geometry.ScaledDimensionKeepsEven | index.js:160-165 | a rounded value that is already even is passed through unchanged |
| Geometry.DefaultScaleExample | index.js:155-165 | scale 0.35 on 3200x1080 gives 1120x378 |
| Geometry.FitRatio | background.js:73 | the ratio is positive, no larger than either bound ratio, and equal to one of them |
| Geometry.ScaledWithin | background.js:72-78 | scaling a source by at most max/src and rounding stays within [0, max], and scaling by exactly max/src gives max |
| Geometry.FitWithinBounds | background.js:72-78 | both fitted dimensions are within their bounds and at least one equals its bound |
| Geometry.CalculateAspectRatioFit | background.js:72-78 | the fit is NaN exactly for a 0x0 source; otherwise it lies within the bounds, touches at least one bound, and each side is within ½ of the exact scaled value |
| Geometry.LegacyFitExample | background.js:94-101 | a 3200x1080 desktop fitted into 1280x720 becomes 1280x432, and a 3000x1080 one becomes 1280x461, an odd height with no even adjustment |
| Paths.Join | index.js:168-175 | the joined path lies inside the directory and ends with the name |
| Paths.JoinInjective | index.js:168-175 | within one directory, different basenames give different paths |
| Paths.JoinDirectoryInjective | index.js:168-175 | for one basename, different directories give different paths |
| Paths.IndexOfFrom | index.js:224-227 | the search from a position returns the first occurrence at or after it, or reports that there is none |
| Paths.IndexOf | index.js:224-227 | the search returns the first occurrence of the pattern, and none exactly when the pattern never occurs |
| Paths.Substitute | index.js:224-227 | the `$$`, `$&`, `` $` `` and `$'` codes of a replacement string are expanded; its other characters stand for themselves (stated through `SubstituteLiteral` and `DollarAmpersandExpands`) |
| Paths.SubstituteLiteral | index.js:224-227 | a replacement with no `$$`, `$&`, `` $` `` or `$'` is inserted verbatim |
| Paths.FirstOccurrenceFound | index.js:224-227 | an occurrence with no occurrence before it is the one the search returns |
| Paths.ReplaceFirst | index.js:224-227 | if the pattern does not occur, the path comes back unchanged; otherwise the text before the first occurrence is kept, the occurrence becomes the substituted replacement, and everything after it, later occurrences included, is kept |
| Paths.PrefixFirst | index.js:224-227 | a pattern that starts the string has its first occurrence at index 0 |
| Paths.ReplaceFirstPrefix | index.js:224-227 | a pattern that is a prefix is swapped for a literal replacement and the rest is kept |
| Paths.ReplaceDirectory | index.js:216-228 | replacing the temp directory in `Join(temp, name)` gives `Join(storage, name)` for a literal storage directory |
| Paths.DollarAmpersandExpands | index.js:224-227 | a `$&` in the storage directory brings the matched temp directory back into the result |
| FileStore.CopyFile | index.js:198 | a copy succeeds exactly when it is allowed and the source exists; then the destination holds the source's bytes and nothing else changes |
| FileStore.Unlink | index.js:205 | an unlink removes exactly its path when allowed and present; otherwise nothing changes |
| FileStore.MoveRecordingToStorage | index.js:196-214 | a failed copy attempts no unlink and changes nothing; a successful copy puts the temp bytes in storage and is always followed by the unlink; no other path changes |
| FileStore.MoveLeavesOneCopy | index.js:196-214 | a move whose copy and unlink succeed leaves one copy, in storage, with the same bytes and length |
| FileStore.FailedCopyKeepsTemp | index.js:198-202 | a failed copy leaves the temp file intact and creates no storage file |
| FileStore.MoveOntoItselfLosesRecording | index.js:196-214 | moving a path onto itself with successful copy and unlink deletes the recording |
| Retention.Doomed | index.js:255-270 | the names unlinked are exactly those of entries whose stat succeeded with mtime before the cutoff |
| Retention.Cutoff | index.js:248-249 | the cutoff is `now` minus `daysBeforeDelete` days of 86 400 000 ms (stated through `DeleteOldRecordings`) |
| Retention.Sweep | index.js:250-272 | a failed readdir unlinks nothing; otherwise `Join(dir, n)` is unlinked exactly when n is an expired entry, and every unlinked path is of that form |
| Retention.DeleteOldRecordings | index.js:247-274 | a failed readdir deletes nothing; otherwise a file of the directory is unlinked exactly when its stat succeeded and it was last modified more than `daysBeforeDelete` days before `now`; every unlinked path lies in the directory |
| Retention.SweepExact | index.js:247-274 | with unique names, each listed entry is unlinked exactly when its stat succeeded and `mtimeMs < cutoff` |
| Retention.ApplyUnlinks | index.js:263-269 | after the unlinks a path remains exactly when it was present and either was not unlinked or its unlink failed; contents are unchanged |
| Retention.SweepOnFileSystem | index.js:247-274 | a listed file disappears exactly when it is expired and its unlink succeeds |
| Retention.SweepLeavesOtherDirectories | index.js:247-274 | a path outside the swept directory, such as a recording in the temp directory, survives the sweep with its bytes |
| Retention.ListFailureDeletesNothing | index.js:250-254 | a readdir failure leaves the file system unchanged |
| Retention.FiveDayRetention | index.js:247-249 | with 5 days retention a 6-day-old file is deleted and a 4-day-old file kept |
| Scheduler.Launch | index.js:152-182 | a start spawns one child with a fresh number; the temp path and the captured storage path join one `recording-<ts>.mp4` name; the size is even; frame rate, bitrate and duration come from the configuration; the child becomes current with its temp path in the temp directory |
| Scheduler.LaunchCaptureSize | index.js:155-165 | the spawned job's size is the combined desktop scaled by the quality factor and bumped to even numbers |
| Scheduler.LockDestination | index.js:224-227 | the lock listener's destination is the first occurrence of the temp directory in the path replaced by the storage directory (stated through `ReplaceDirectory` and `LockDestinationMatchesCompletion`) |
| Scheduler.CloseListener | index.js:221-233 | one `stopRecording` close listener moves the current temp file, if any, and clears both variables (stated through `RunCloseListeners`) |
| Scheduler.StartRecording | index.js:140-194 | inactive or outside the window: state unchanged and only a re-check after `videoDuration * 1000` ms; inside: a launch |
| Scheduler.StopRecording | index.js:216-221 | without a current child a lock does nothing; with one it sends `q` and attaches one close listener to it if it is still running |
| Scheduler.RunCloseListeners | index.js:221-233 | any number of lock listeners moves the temp file at most once, to its lock destination, and leaves both variables null |
| Scheduler.OnExit | index.js:182-193 | on error no completion move and no re-arm; on success the temp file is moved to the captured storage path and a start is armed after 1000 ms, and with no lock listener those two are the only actions; with no temp path left the callback throws and nothing else changes; every move reads the module-level temp path; `current` is reset only by a lock listener |
| Scheduler.Step | index.js:347-357 | every event keeps all child numbers below the counter; it keeps `currentRecordingProcess` and `tempRecordingPath` set and cleared together with the temp path inside the temp directory, and every file it moves is read from the temp directory |
| Scheduler.Run | index.js:347-357 | after any sequence of events the numbering invariant holds, a child is current exactly while a temp path is set, and no move reads a file outside the temp directory |
| SchedulerFacts.ClosedWindowOnlyWaits | index.js:140-150 | outside the window a timer or an unlock changes nothing and only re-arms after `videoDuration * 1000` ms |
| SchedulerFacts.LockDestinationMatchesCompletion | index.js:216-228 | the lock listener's destination for a fresh temp path equals the storage path captured at spawn |
| SchedulerFacts.CompletionDeliversRecording | index.js:167-193 | start then clean exit moves `temp/recording-<ts>.mp4` to `storage/recording-<ts>.mp4`, re-arms after 1000 ms, keeps the exited child as current; the bytes end up in storage only |
| SchedulerFacts.SameDirectoriesLoseRecording | index.js:167-214 | with equal temp and storage directories the completion move is onto itself and a successful copy and unlink loses the recording |
| SchedulerFacts.ErrorEndsLoop | index.js:182-186 | start then error exit issues no action at all: no move and no re-arm |
| SchedulerFacts.LockWithoutChildIsNoOp | index.js:216-218 | a lock with no current child changes nothing and does nothing |
| SchedulerFacts.StartedState | index.js:140-182 | in an open window a timer and an unlock both make the new child current, set the temp path to `Join(temp, recording-<ts>.mp4)` and record `Join(storage, recording-<ts>.mp4)` for it |
| SchedulerFacts.LockedState | index.js:216-221 | a lock sends `q` to the current child and attaches one more close listener to it, changing nothing else |
| SchedulerFacts.CleanExit | index.js:182-193 | a clean exit moves the temp file to the captured storage path and re-arms after 1000 ms; with a lock listener attached, the listener then moves the same temp file to its lock destination and clears both variables |
| SchedulerFacts.ErrorExit | index.js:182-186 | an error exit issues no completion move and no re-arm; only an attached lock listener moves the temp file and clears both variables |
| SchedulerFacts.LockThenExit | index.js:182-235 | a lock followed by the child's exit: one `q`, then the completion move and re-arm (clean exit only) followed by the listener's move to the same destination |
| SchedulerFacts.LockedSessionKeepsLooping | index.js:182-235 | from a started session under any file name, lock then clean exit: the file is moved twice to the same place, both variables are cleared, and a new start is still armed |
| SchedulerFacts.LockedErrorExitWaitsForUnlock | index.js:182-235 | from a started session under any file name, lock then error exit: only the lock listener moves the file and nothing is armed |
| SchedulerFacts.UnlockStartsSecondSession | index.js:354-357 | in an open window an unlock spawns a new child whatever is running: every running child stays live and the count of live children grows by one |
| SchedulerFacts.OverlapMovesWrongFile | index.js:182-193 | with two overlapping sessions, the first exit moves the second session's temp file under the first session's name |
| SchedulerFacts.OverlapAfterLockThrows | index.js:182-235 | start, lock, a second start, then both children exit cleanly: the first child's listener clears the second session's temp path, so the second completion throws without re-arming |
| Legacy.DefaultLegacyConfig | background.js:21-28 | the first-run configuration: 300 s chunks into `videos\screenshots`, hours 8..18, active, 5 days retention |
| Legacy.StartRecording | background.js:80-122 | inactive or outside the window: only a re-check after `videoDuration * 1000` ms; inside: one child writing `directory/recording-<ts>.mp4` at 5 fps and 500k, its size the combined desktop fitted into 1280x720, so within the bounds and touching one, NaN only for a 0x0 desktop |
| Legacy.OnExit | background.js:112-121 | every exit of a running child, with or without error, only arms the next start after 1000 ms |
| Legacy.Step | background.js:80-122 | child numbers stay below the counter |
| Legacy.DefaultWindowEdges | background.js:21-38 | with the default window 8..18 hour 8 starts a session and hour 18 waits 300 000 ms |
| Legacy.EveryExitRearms | background.js:112-121 | start then exit, with or without error, re-arms after 1000 ms and moves nothing |
| Startup.Boot | index.js:313-347 | each variant arms the daily sweep and then starts the loop; only index.js sweeps at launch (background.js:173-178), first of all, and that sweep covers the same directory with the same retention as the daily one; the loop is started exactly once, as the last action, and nothing else is in the sequence |
| Startup.CurrentSweepSchedule | index.js:313-317 | index.js sweeps at launch and every 86 400 000 ms after |
| Startup.LegacySweepSchedule | background.js:173-175 | background.js first sweeps one day after launch, then daily |

## Left out

- The Electron tray, menu, dialogs and `app` lifecycle are left out. They are UI and framework plumbing.
- Auto-update and auto-launch are left out. They are external services.
- Console and log redirection and `clearLogFile` are left out. They are I/O only.
- `readConfig`'s file checks, JSON parsing and writing, and `ensureDirectoryExists` are left out. They are file I/O. The configuration is one fixed record, and the defaults are constants.
- Edits to the configuration file are left out. `stopRecording` re-reads the file at lock time; the model uses the same configuration throughout.
- The ffmpeg command string and `exec` are not modelled. A child is a `Spawn` action carrying the numbers the command line is built from, and its end is an `Exit` event with an error flag.
- `stdin.write("q")` to a child that has already exited is left out. The model emits the `SendQuit` action and attaches no listener; it does not model the stream error the write raises.
- Timers are returned as delays and are not scheduled. Asynchronous interleaving of the `fs` callbacks is left out: a move and a sweep each run as one sequential pass.
- IEEE-754 rounding is left out. `scale` and the fit ratio are exact `real` values, and NaN appears only where a 0x0 desktop makes it certain.
- `path.join` normalisation is left out. A join is the directory, a backslash, and the name.
- `mtimeMs` is modelled as an integer, its floor. This is exact because the cutoff is a whole number of milliseconds.
- Still-image capture is not part of this model: neither index.js nor background.js has it.
- renderer.js is left out. It is DOM and IPC code with no capture logic.
- The clock is read once per start. index.js calls `new Date()` once in `isWithinRecordingHours` and again in `getFormattedDateTime`; the model uses one reading for both, so a start that straddles the hour boundary is not modelled.
- Timestamp.FormatInjective: proved for clock readings in range (`Valid`) with non-negative years. `getFullYear()` of a clock before year 0 is not modelled.

=== FILE: filestore.dfy ===
/** An abstract file system (path to contents) and `moveRecordingToStorage`
    of index.js: copy the temp file to storage, and unlink the temp file only
    once the copy has succeeded. Whether the operating system lets a copy or an
    unlink succeed is an input; a missing source file always fails the copy. */
module FileStore {

  type Bytes = seq<bv8>

  type FileSystem = map<string, Bytes>

  /** `fs.copyFile(src, dst)`: on success `dst` holds the bytes of `src`. */
  function CopyFile(fs: FileSystem, src: string, dst: string, allowed: bool): (r: (FileSystem, bool))
    ensures r.1 <==> allowed && src in fs
    ensures !r.1 ==> r.0 == fs
    ensures r.1 ==> r.0.Keys == fs.Keys + {dst} && r.0[dst] == fs[src]
    ensures forall p :: p in fs && p != dst ==> p in r.0 && r.0[p] == fs[p]
  {
    if allowed && src in fs then (fs[dst := fs[src]], true) else (fs, false)
  }

  /** `fs.unlink(path)`: on success the path is gone. */
  function Unlink(fs: FileSystem, path: string, allowed: bool): (r: (FileSystem, bool))
    ensures r.1 <==> allowed && path in fs
    ensures r.0.Keys == if r.1 then fs.Keys - {path} else fs.Keys
    ensures forall p :: p in r.0 ==> r.0[p] == fs[p]
  {
    if allowed && path in fs then (fs - {path}, true) else (fs, false)
  }

  /** What one call of `moveRecordingToStorage` did. */
  datatype MoveReport = MoveReport(fs: FileSystem, copied: bool, unlinkAttempted: bool, unlinked: bool)

  /** `moveRecordingToStorage(tempPath, storagePath)` given the outcome the
      operating system grants to its copy and to its unlink. */
  function MoveRecordingToStorage(fs: FileSystem, tempPath: string, storagePath: string,
                                  copyAllowed: bool, unlinkAllowed: bool): (m: MoveReport)
    // a failed copy attempts no unlink and changes nothing
    ensures !m.copied ==> !m.unlinkAttempted && !m.unlinked && m.fs == fs
    ensures m.copied <==> copyAllowed && tempPath in fs
    // a successful copy is always followed by an unlink of the temp file
    ensures m.copied ==> m.unlinkAttempted
    ensures m.copied && tempPath != storagePath ==>
      && storagePath in m.fs && m.fs[storagePath] == fs[tempPath]
      && (tempPath in m.fs <==> !m.unlinked)
      && (m.unlinked <==> unlinkAllowed)
      // a failed unlink is only logged: the temp file keeps its bytes
      && (tempPath in m.fs ==> m.fs[tempPath] == fs[tempPath])
    // no other path is touched
    ensures forall p :: p != tempPath && p != storagePath ==> (p in m.fs <==> p in fs)
    ensures forall p :: p != tempPath && p != storagePath && p in fs ==> m.fs[p] == fs[p]
  {
    var (afterCopy, copied) := CopyFile(fs, tempPath, storagePath, copyAllowed);
    if !copied then MoveReport(fs, false, false, false)
    else
      var (afterUnlink, unlinked) := Unlink(afterCopy, tempPath, unlinkAllowed);
      MoveReport(afterUnlink, true, true, unlinked)
  }

  /** A move whose copy and unlink both succeed leaves exactly one copy of the
      recording, in storage, with the same bytes (and so the same length). */
  lemma MoveLeavesOneCopy(fs: FileSystem, tempPath: string, storagePath: string)
    requires tempPath in fs && tempPath != storagePath
    ensures var m := MoveRecordingToStorage(fs, tempPath, storagePath, true, true);
      && tempPath !in m.fs
      && storagePath in m.fs
      && m.fs[storagePath] == fs[tempPath]
      && |m.fs[storagePath]| == |fs[tempPath]|
      && m.fs.Keys == fs.Keys - {tempPath} + {storagePath}
  {
  }

  /** A move whose copy fails leaves the temp file in place and creates no
      storage file. */
  lemma FailedCopyKeepsTemp(fs: FileSystem, tempPath: string, storagePath: string, unlinkAllowed: bool)
    requires tempPath in fs && storagePath !in fs
    ensures var m := MoveRecordingToStorage(fs, tempPath, storagePath, false, unlinkAllowed);
      && tempPath in m.fs && m.fs[tempPath] == fs[tempPath]
      && storagePath !in m.fs
  {
  }

  /** When destination and source are the same path, a copy the system reports
      as successful is followed by the unlink, and the recording is gone. */
  lemma MoveOntoItselfLosesRecording(fs: FileSystem, path: string)
    requires path in fs
    ensures path !in MoveRecordingToStorage(fs, path, path, true, true).fs
  {
  }
}

=== FILE: geometry.dfy ===
/** Capture geometry: the combined size of all displays, the scaled and
    even-rounded size index.js passes to ffmpeg, and the bounded aspect-ratio
    fit background.js uses instead. Arithmetic is exact (`real`), not IEEE-754. */
module Geometry {

  /** `display.bounds` as far as the capture size is concerned. */
  datatype Display = Display(width: nat, height: nat)

  datatype Size = Size(width: int, height: int)

  /** The sum of the display widths, as an independent reference. */
  function TotalWidth(displays: seq<Display>): nat {
    if |displays| == 0 then 0 else displays[0].width + TotalWidth(displays[1..])
  }

  /** The `forEach` of `getCombinedScreenResolution` from the given running
      totals: widths are added, the height is raised whenever a display is taller. */
  function Accumulate(displays: seq<Display>, totalWidth: int, maxHeight: int): (r: Size)
    ensures r.width == totalWidth + TotalWidth(displays)
    ensures r.height >= maxHeight
    ensures forall i :: 0 <= i < |displays| ==> displays[i].height <= r.height
    ensures r.height == maxHeight || exists i :: 0 <= i < |displays| && displays[i].height == r.height
    decreases |displays|
  {
    if |displays| == 0 then Size(totalWidth, maxHeight)
    else
      var d := displays[0];
      var r := Accumulate(displays[1..], totalWidth + d.width, if d.height > maxHeight then d.height else maxHeight);
      assert forall i :: 1 <= i < |displays| ==> displays[i] == displays[1..][i - 1];
      r
  }

  /** `getCombinedScreenResolution()`: displays side by side. The width is the
      sum of all widths; the height is the tallest display, or 0 when there is
      no display (or none taller than 0). */
  function CombinedResolution(displays: seq<Display>): (r: Size)
    ensures r.width == TotalWidth(displays) && 0 <= r.width
    ensures 0 <= r.height
    ensures forall i :: 0 <= i < |displays| ==> displays[i].height <= r.height
    ensures r.height == 0 || exists i :: 0 <= i < |displays| && displays[i].height == r.height
    ensures |displays| == 0 ==> r == Size(0, 0)
  {
    Accumulate(displays, 0, 0)
  }

  /** Two displays of 1920x1080 and 1280x1024 side by side. */
  lemma TwoMonitorExample()
    ensures CombinedResolution([Display(1920, 1080), Display(1280, 1024)]) == Size(3200, 1080)
  {
    var ds := [Display(1920, 1080), Display(1280, 1024)];
    assert ds[1..] == [Display(1280, 1024)];
    assert ds[1..][1..] == [];
  }

  /** `Math.round`: the nearest integer, halves rounded up. */
  function JsRound(x: real): (r: int)
    ensures x - 0.5 < r as real <= x + 0.5
  {
    (x + 0.5).Floor
  }

  /** Rounding is monotone. */
  lemma JsRoundMonotone(x: real, y: real)
    requires x <= y
    ensures JsRound(x) <= JsRound(y)
  {
  }

  /** `if (n % 2 !== 0) n += 1`. The JavaScript remainder of an odd negative
      number is -1, never 0, so the test means "n is odd" for every sign, as
      Dafny's remainder does. */
  function EvenUp(n: int): (r: int)
    ensures r % 2 == 0
    ensures n <= r <= n + 1
  {
    if n % 2 != 0 then n + 1 else n
  }

  /** An even number is left alone, and the result is the least even number
      not below the input. */
  lemma EvenUpLeast(n: int, m: int)
    requires m % 2 == 0 && n <= m
    ensures EvenUp(n) <= m
    ensures n % 2 == 0 ==> EvenUp(n) == n
  {
  }

  /** `Math.round(dim * scale)` then bumped to even (index.js). */
  function ScaledDimension(dim: int, scale: real): (r: int)
    ensures r % 2 == 0
    ensures JsRound(dim as real * scale) <= r <= JsRound(dim as real * scale) + 1
    ensures dim as real * scale - 0.5 < r as real <= dim as real * scale + 1.5
  {
    EvenUp(JsRound(dim as real * scale))
  }

  /** The `scale=W:H` filter size index.js passes to ffmpeg for a combined size. */
  function ScaledSize(combined: Size, scale: real): (r: Size)
    ensures r.width % 2 == 0 && r.height % 2 == 0
    ensures JsRound(combined.width as real * scale) <= r.width <= JsRound(combined.width as real * scale) + 1
    ensures JsRound(combined.height as real * scale) <= r.height <= JsRound(combined.height as real * scale) + 1
  {
    Size(ScaledDimension(combined.width, scale), ScaledDimension(combined.height, scale))
  }

  /** A dimension whose rounded scaled value is already even is passed through
      unchanged. */
  lemma ScaledDimensionKeepsEven(dim: int, scale: real)
    requires JsRound(dim as real * scale) % 2 == 0
    ensures ScaledDimension(dim, scale) == JsRound(dim as real * scale)
  {
  }

  /** The default scale 0.35 on a 3200x1080 desktop: 1120 stays, 378 stays. */
  lemma DefaultScaleExample()
    ensures ScaledSize(Size(3200, 1080), 0.35) == Size(1120, 378)
  {
    assert JsRound(3200.0 * 0.35) == 1120;
    assert JsRound(1080.0 * 0.35) == 378;
  }

  /** The result of `calculateAspectRatioFit`: two numbers, or NaN for both when
      the source size is 0x0 (0 * Infinity). */
  datatype Fit = Fitted(size: Size) | NotANumber

  /** `Math.min(maxWidth / srcWidth, maxHeight / srcHeight)`, where a division by
      a zero source dimension is +Infinity and so loses the minimum. */
  function FitRatio(srcWidth: int, srcHeight: int, maxWidth: int, maxHeight: int): (ratio: real)
    requires srcWidth >= 0 && srcHeight >= 0 && maxWidth > 0 && maxHeight > 0
    requires srcWidth > 0 || srcHeight > 0
    ensures ratio > 0.0
    ensures srcWidth > 0 ==> ratio <= maxWidth as real / srcWidth as real
    ensures srcHeight > 0 ==> ratio <= maxHeight as real / srcHeight as real
    ensures (srcWidth > 0 && ratio == maxWidth as real / srcWidth as real)
         || (srcHeight > 0 && ratio == maxHeight as real / srcHeight as real)
  {
    if srcWidth == 0 then maxHeight as real / srcHeight as real
    else if srcHeight == 0 then maxWidth as real / srcWidth as real
    else
      var a := maxWidth as real / srcWidth as real;
      var b := maxHeight as real / srcHeight as real;
      if a <= b then a else b
  }

  /** Scaling by a ratio no larger than `max / src` stays within `max`; scaling
      by exactly `max / src` lands on `max`. */
  lemma ScaledWithin(src: int, max: int, ratio: real)
    requires src > 0 && max > 0 && 0.0 < ratio <= max as real / src as real
    ensures 0 <= JsRound(src as real * ratio) <= max
    ensures ratio == max as real / src as real ==> JsRound(src as real * ratio) == max
  {
    assert src as real * ratio <= src as real * (max as real / src as real);
    assert src as real * (max as real / src as real) == max as real;
    JsRoundMonotone(src as real * ratio, max as real);
    JsRoundMonotone(0.0, src as real * ratio);
  }

  lemma FitWithinBounds(srcWidth: int, srcHeight: int, maxWidth: int, maxHeight: int)
    requires srcWidth >= 0 && srcHeight >= 0 && maxWidth > 0 && maxHeight > 0
    requires srcWidth > 0 || srcHeight > 0
    ensures var ratio := FitRatio(srcWidth, srcHeight, maxWidth, maxHeight);
      && 0 <= JsRound(srcWidth as real * ratio) <= maxWidth
      && 0 <= JsRound(srcHeight as real * ratio) <= maxHeight
      && (JsRound(srcWidth as real * ratio) == maxWidth || JsRound(srcHeight as real * ratio) == maxHeight)
  {
    var ratio := FitRatio(srcWidth, srcHeight, maxWidth, maxHeight);
    if srcWidth > 0 {
      ScaledWithin(srcWidth, maxWidth, ratio);
    } else {
      assert JsRound(0.0) == 0;
    }
    if srcHeight > 0 {
      ScaledWithin(srcHeight, maxHeight, ratio);
    } else {
      assert JsRound(0.0) == 0;
    }
  }

  /** `calculateAspectRatioFit(srcWidth, srcHeight, maxWidth, maxHeight)`
      (background.js): the largest uniform scaling of the source that fits the
      bounds, each dimension rounded to the nearest integer and no even-number
      adjustment. The result fits inside the bounds and touches at least one. */
  function CalculateAspectRatioFit(srcWidth: int, srcHeight: int, maxWidth: int, maxHeight: int): (r: Fit)
    requires srcWidth >= 0 && srcHeight >= 0 && maxWidth > 0 && maxHeight > 0
    ensures r.NotANumber? <==> srcWidth == 0 && srcHeight == 0
    ensures r.Fitted? ==> 0 <= r.size.width <= maxWidth && 0 <= r.size.height <= maxHeight
    ensures r.Fitted? ==> r.size.width == maxWidth || r.size.height == maxHeight
    ensures r.Fitted? ==>
      var ratio := FitRatio(srcWidth, srcHeight, maxWidth, maxHeight);
      && srcWidth as real * ratio - 0.5 < r.size.width as real <= srcWidth as real * ratio + 0.5
      && srcHeight as real * ratio - 0.5 < r.size.height as real <= srcHeight as real * ratio + 0.5
  {
    if srcWidth == 0 && srcHeight == 0 then NotANumber
    else
      var ratio := FitRatio(srcWidth, srcHeight, maxWidth, maxHeight);
      var w := JsRound(srcWidth as real * ratio);
      var h := JsRound(srcHeight as real * ratio);
      FitWithinBounds(srcWidth, srcHeight, maxWidth, maxHeight);
      Fitted(Size(w, h))
  }

  /** The call site in background.js fits the desktop into 1280x720: a 3200x1080
      desktop becomes 1280x432, and a 3000x1080 one becomes 1280x461, an odd
      height that is passed on as it is. */
  lemma LegacyFitExample()
    ensures CalculateAspectRatioFit(3200, 1080, 1280, 720) == Fitted(Size(1280, 432))
    ensures CalculateAspectRatioFit(3000, 1080, 1280, 720) == Fitted(Size(1280, 461))
  {
    assert FitRatio(3200, 1080, 1280, 720) == 0.4;
    assert JsRound(3200.0 * 0.4) == 1280;
    assert JsRound(1080.0 * 0.4) == 432;
    assert FitRatio(3000, 1080, 1280, 720) == 1280.0 / 3000.0;
    assert JsRound(3000.0 * (1280.0 / 3000.0)) == 1280;
    assert JsRound(1080.0 * (1280.0 / 3000.0)) == 461;
  }
}

=== FILE: legacy.dfy ===
/** The older capture loop of background.js: one recording directory, no
    temp/storage split and no move, a fixed 1280x720 aspect-ratio fit, no
    lock handling, and a re-arm after every exit whether or not ffmpeg failed. */
module Legacy {
  import opened Wrappers
  import opened Settings
  import opened Timestamp
  import opened Geometry
  import opened Paths

  datatype LegacyConfig = LegacyConfig(
    videoDuration: int,
    directory: string,
    startHour: int,
    stopHour: int,
    active: bool,
    daysBeforeDelete: int
  )

  /** The configuration written on first run; `videosDirectory` is the
      platform's videos folder. */
  function DefaultLegacyConfig(videosDirectory: string): LegacyConfig {
    LegacyConfig(300, Join(videosDirectory, "screenshots"), 8, 18, true, 5)
  }

  /** The bounds the desktop is fitted into. */
  const MaxWidth: int := 1280
  const MaxHeight: int := 720

  /** What the ffmpeg command line is built from; frame rate 5 and maxrate
      500k are written into the command. */
  datatype Job = Job(fit: Fit, frameRate: int, maxRate: string, durationSeconds: int, output: string)

  datatype State = State(current: Option<nat>, live: set<nat>, nextId: nat)

  const Initial: State := State(None, {}, 0)

  datatype Action =
    | ArmStart(delayMs: int)
    | Spawn(id: nat, job: Job)

  datatype Event =
    | Timer(now: DateTime, displays: seq<Display>)
    | Exit(id: nat, error: bool)

  datatype Outcome = Outcome(state: State, actions: seq<Action>)

  /** `startRecording(config)` of background.js. */
  function StartRecording(cfg: LegacyConfig, st: State, now: DateTime, displays: seq<Display>): (o: Outcome)
    ensures !cfg.active || !IsWithinRecordingHours(now.hour, cfg.startHour, cfg.stopHour) ==>
      o == Outcome(st, [ArmStart(cfg.videoDuration * 1000)])
    ensures cfg.active && IsWithinRecordingHours(now.hour, cfg.startHour, cfg.stopHour) ==>
      && |o.actions| == 1 && o.actions[0].Spawn?
      && o.actions[0].id == st.nextId && o.state.current == Some(st.nextId)
      && o.state.live == st.live + {st.nextId} && o.state.nextId == st.nextId + 1
      && o.actions[0].job.output == Join(cfg.directory, RecordingFileName(now))
      && o.actions[0].job.durationSeconds == cfg.videoDuration
      && o.actions[0].job.frameRate == 5 && o.actions[0].job.maxRate == "500k"
      // the combined desktop fitted into 1280x720, so the contract of
      // CalculateAspectRatioFit carries over
      && o.actions[0].job.fit == CalculateAspectRatioFit(CombinedResolution(displays).width,
                                                         CombinedResolution(displays).height, MaxWidth, MaxHeight)
      // the fitted size stays inside 1280x720 and touches one of the bounds
      && (o.actions[0].job.fit.Fitted? ==>
            var size := o.actions[0].job.fit.size;
            && 0 <= size.width <= MaxWidth && 0 <= size.height <= MaxHeight
            && (size.width == MaxWidth || size.height == MaxHeight))
      // only a desktop of zero size gives NaN
      && (o.actions[0].job.fit.NotANumber? <==> CombinedResolution(displays) == Size(0, 0))
  {
    match Decide(cfg.active, cfg.startHour, cfg.stopHour, cfg.videoDuration, now.hour)
    case Skip(delay) => Outcome(st, [ArmStart(delay)])
    case Record =>
      var combined := CombinedResolution(displays);
      var fit := CalculateAspectRatioFit(combined.width, combined.height, MaxWidth, MaxHeight);
      var job := Job(fit, 5, "500k", cfg.videoDuration, Join(cfg.directory, RecordingFileName(now)));
      var id := st.nextId;
      Outcome(State(Some(id), st.live + {id}, id + 1), [Spawn(id, job)])
  }

  /** The completion callback of background.js: it logs, then re-arms after
      one second in every case. */
  function OnExit(st: State, id: nat, error: bool): (o: Outcome)
    ensures id in st.live ==> o.actions == [ArmStart(1000)]
    ensures id in st.live ==> o.state == st.(live := st.live - {id})
    ensures id !in st.live ==> o == Outcome(st, [])
  {
    if id !in st.live then Outcome(st, [])
    else Outcome(st.(live := st.live - {id}), [ArmStart(1000)])
  }

  function Step(cfg: LegacyConfig, st: State, ev: Event): (o: Outcome)
    ensures (forall id :: id in st.live ==> id < st.nextId) ==> (forall id :: id in o.state.live ==> id < o.state.nextId)
  {
    match ev
    case Timer(now, displays) => StartRecording(cfg, st, now, displays)
    case Exit(id, error) => OnExit(st, id, error)
  }

  /** With the default window 8..18, a timer at 8 o'clock starts a session
      and one at 18 o'clock waits five minutes. */
  lemma DefaultWindowEdges(videosDirectory: string, t: DateTime, displays: seq<Display>)
    ensures var cfg := DefaultLegacyConfig(videosDirectory);
      t.hour == 8 ==> Step(cfg, Initial, Timer(t, displays)).actions[0].Spawn?
    ensures var cfg := DefaultLegacyConfig(videosDirectory);
      t.hour == 18 ==> Step(cfg, Initial, Timer(t, displays)) == Outcome(Initial, [ArmStart(300000)])
  {
  }

  /** The loop never stops: whichever way a session ends, the only thing its
      exit does is arm the next start one second later; nothing is moved. */
  lemma EveryExitRearms(cfg: LegacyConfig, st: State, now: DateTime, displays: seq<Display>, error: bool)
    requires (forall id :: id in st.live ==> id < st.nextId)
    requires cfg.active && IsWithinRecordingHours(now.hour, cfg.startHour, cfg.stopHour)
    ensures var o1 := Step(cfg, st, Timer(now, displays));
      var o2 := Step(cfg, o1.state, Exit(st.nextId, error));
      && o2.actions == [ArmStart(1000)]
      && o2.state.live == st.live
  {
    var o1 := Step(cfg, st, Timer(now, displays));
    assert st.nextId !in st.live;
    assert o1.state.live - {st.nextId} == st.live;
  }
}

=== FILE: paths.dfy ===
/** Path strings: `path.join` of a directory and a basename, and the
    first-occurrence `String.prototype.replace` with a string pattern that
    `stopRecording` uses to turn a temp path into a storage path. */
module Paths {
  import opened Wrappers

  /** The Windows path separator (the capture uses gdigrab, a Windows device). */
  const Separator: char := '\\'

  /** `p` lies inside `directory`: the directory, a separator, then the rest. */
  predicate InDirectory(directory: string, p: string) {
    |directory| < |p| && p[..|directory| + 1] == directory + [Separator]
  }

  /** `path.join(directory, name)`, without the normalisation of `.`/`..` and
      doubled separators. */
  function Join(directory: string, name: string): (r: string)
    ensures InDirectory(directory, r) && r[|directory| + 1..] == name
  {
    var r := directory + [Separator] + name;
    assert r[..|directory| + 1] == directory + [Separator];
    r
  }

  /** A joined path is the directory followed by the separator-led basename. */
  lemma JoinSplits(directory: string, name: string)
    ensures Join(directory, name) == directory + ([Separator] + name)
  {
  }

  /** For a fixed directory, different basenames give different paths. */
  lemma JoinInjective(directory: string, a: string, b: string)
    ensures Join(directory, a) == Join(directory, b) <==> a == b
  {
    if Join(directory, a) == Join(directory, b) {
      var n := |directory| + 1;
      assert a == Join(directory, a)[n..];
      assert b == Join(directory, b)[n..];
    }
  }

  /** For a fixed basename, different directories give different paths. */
  lemma JoinDirectoryInjective(a: string, b: string, name: string)
    ensures Join(a, name) == Join(b, name) <==> a == b
  {
    if Join(a, name) == Join(b, name) {
      assert |a| == |b|;
      assert a == Join(a, name)[..|a|];
      assert b == Join(b, name)[..|b|];
    }
  }

  /** `pattern` occurs in `s` starting at index `i`. */
  predicate OccursAt(s: string, pattern: string, i: int) {
    0 <= i && i + |pattern| <= |s| && s[i..i + |pattern|] == pattern
  }

  /** The first index at or after `from` where `pattern` occurs. */
  function IndexOfFrom(s: string, pattern: string, from: nat): (r: Option<nat>)
    ensures r.Some? ==> from <= r.value && OccursAt(s, pattern, r.value)
    ensures r.Some? ==> forall j :: from <= j < r.value ==> !OccursAt(s, pattern, j)
    ensures r.None? ==> forall j :: from <= j ==> !OccursAt(s, pattern, j)
    decreases |s| - from
  {
    if from + |pattern| > |s| then None
    else if s[from..from + |pattern|] == pattern then Some(from)
    else IndexOfFrom(s, pattern, from + 1)
  }

  /** `s.indexOf(pattern)`: the first occurrence, or none. */
  function IndexOf(s: string, pattern: string): (r: Option<nat>)
    ensures r.Some? ==> OccursAt(s, pattern, r.value)
    ensures r.Some? ==> forall j :: 0 <= j < r.value ==> !OccursAt(s, pattern, j)
    ensures r.None? <==> forall j :: !OccursAt(s, pattern, j)
  {
    IndexOfFrom(s, pattern, 0)
  }

  /** An occurrence with none before it is the one the search returns. */
  lemma FirstOccurrenceFound(s: string, pattern: string)
    ensures forall i :: FirstAt(s, pattern, i) ==> IndexOf(s, pattern) == Some(i)
  {
    forall i | FirstAt(s, pattern, i)
      ensures IndexOf(s, pattern) == Some(i)
    {
      var k := IndexOf(s, pattern);
      assert k.Some?;
      assert !(k.value < i);
    }
  }

  /** The characters that follow `$` in a replacement string to form a
      substitution pattern when the search pattern is a plain string:
      `$$`, `$&`, `` $` `` and `$'`. */
  predicate IsSubstitutionCode(c: char) {
    c == '$' || c == '&' || c == '`' || c == '\''
  }

  /** The GetSubstitution step of `String.prototype.replace` for a string
      pattern (no capture groups): `$$` is a dollar sign, `$&` the matched text,
      `` $` `` the text before the match, `$'` the text after it, and every other
      character stands for itself. */
  function Substitute(replacement: string, matched: string, before: string, after: string): string
    decreases |replacement|
  {
    if |replacement| == 0 then ""
    else if replacement[0] == '$' && |replacement| >= 2 && IsSubstitutionCode(replacement[1]) then
      var expansion :=
        if replacement[1] == '$' then "$"
        else if replacement[1] == '&' then matched
        else if replacement[1] == '`' then before
        else after;
      expansion + Substitute(replacement[2..], matched, before, after)
    else
      [replacement[0]] + Substitute(replacement[1..], matched, before, after)
  }

  /** A replacement with no `$` followed by a substitution code is inserted literally. */
  predicate Literal(replacement: string)
    decreases |replacement|
  {
    |replacement| < 2 ||
      ((replacement[0] != '$' || !IsSubstitutionCode(replacement[1])) && Literal(replacement[1..]))
  }

  lemma {:induction false} SubstituteLiteral(replacement: string, matched: string, before: string, after: string)
    requires Literal(replacement)
    ensures Substitute(replacement, matched, before, after) == replacement
    decreases |replacement|
  {
    if 2 <= |replacement| {
      SubstituteLiteral(replacement[1..], matched, before, after);
      assert [replacement[0]] + replacement[1..] == replacement;
    } else if |replacement| == 1 {
      assert Substitute(replacement[1..], matched, before, after) == "";
      assert [replacement[0]] == replacement;
    }
  }

  /** `pattern` occurs at `i` and nowhere before it. */
  predicate FirstAt(s: string, pattern: string, i: int) {
    OccursAt(s, pattern, i) && forall j :: 0 <= j < i ==> !OccursAt(s, pattern, j)
  }

  /** The occurrence at `i` replaced: the text before it kept, the match turned
      into the substituted replacement, and the rest kept. */
  function Spliced(s: string, pattern: string, replacement: string, i: int): string
    requires OccursAt(s, pattern, i)
  {
    var before := s[..i];
    var after := s[i + |pattern|..];
    before + Substitute(replacement, pattern, before, after) + after
  }

  /** `s.replace(pattern, replacement)` with a string pattern: only the first
      occurrence is replaced, and `s` comes back unchanged when there is none. */
  function ReplaceFirst(s: string, pattern: string, replacement: string): (r: string)
    ensures (forall j :: !OccursAt(s, pattern, j)) ==> r == s
    // the first occurrence is spliced; later occurrences are left as they are
    ensures forall i :: FirstAt(s, pattern, i) ==> r == Spliced(s, pattern, replacement, i)
  {
    FirstOccurrenceFound(s, pattern);
    match IndexOf(s, pattern)
    case None => s
    case Some(i) => Spliced(s, pattern, replacement, i)
  }

  /** A pattern that starts the string has its first occurrence at index 0. */
  lemma PrefixFirst(prefix: string, rest: string)
    ensures FirstAt(prefix + rest, prefix, 0)
  {
    assert (prefix + rest)[0..|prefix|] == prefix;
  }

  /** When the pattern is a prefix of `s` (a temp directory at the head of a temp
      path) and the replacement is literal, the prefix is swapped and the rest
      kept. */
  lemma ReplaceFirstPrefix(prefix: string, rest: string, replacement: string)
    requires Literal(replacement)
    ensures ReplaceFirst(prefix + rest, prefix, replacement) == replacement + rest
  {
    var s := prefix + rest;
    PrefixFirst(prefix, rest);
    assert Spliced(s, prefix, replacement, 0) == replacement + rest by {
      var before := s[..0];
      var after := s[|prefix|..];
      assert before == [] && after == rest;
      SubstituteLiteral(replacement, prefix, before, after);
    }
  }

  /** Swapping the directory of a joined path: `Join(from, name)` becomes
      `Join(to, name)`, so a temp path and its storage path share a basename. */
  lemma ReplaceDirectory(from: string, to: string, name: string)
    requires Literal(to)
    ensures ReplaceFirst(Join(from, name), from, to) == Join(to, name)
  {
    var rest := [Separator] + name;
    JoinSplits(from, name);
    JoinSplits(to, name);
    ReplaceFirstPrefix(from, rest, to);
  }

  /** A `$&` in the replacement is not literal: it brings the matched text back,
      so `C:\t\x` with pattern `C:\t` and replacement `D:\$&` becomes `D:\C:\t\x`. */
  lemma DollarAmpersandExpands()
    ensures ReplaceFirst("C:\\t\\x", "C:\\t", "D:\\$&") == "D:\\C:\\t\\x"
  {
    var s := "C:\\t\\x";
    PrefixFirst("C:\\t", "\\x");
    assert ReplaceFirst(s, "C:\\t", "D:\\$&") == Spliced(s, "C:\\t", "D:\\$&", 0);
    var rep := "D:\\$&";
    assert rep[1..] == ":\\$&";
    assert rep[1..][1..] == "\\$&";
    assert rep[1..][1..][1..] == "$&";
    assert Substitute("$&", "C:\\t", "", "\\x") == "C:\\t";
  }
}

=== FILE: retention.dfy ===
/** `deleteOldRecordings(directory, daysBeforeDelete)`: list the directory once,
    stat each entry, and unlink every entry modified before the cutoff. The
    asynchronous callbacks are modelled as one sequential pass in listing order;
    the outcomes of `readdir`, `stat` and `unlink` are inputs. */
module Retention {
  import opened Wrappers
  import opened Paths
  import FileStore

  /** `24 * 60 * 60 * 1000` */
  const MsPerDay: int := 86400000

  /** `Date.now() - daysBeforeDelete * 24 * 60 * 60 * 1000` */
  function Cutoff(now: int, daysBeforeDelete: int): int {
    now - daysBeforeDelete * MsPerDay
  }

  /** One directory entry with the result of its `fs.stat`: the modification
      time in whole milliseconds, or None when the stat failed. (`mtimeMs` may
      carry a fraction; since the cutoff is a whole number, comparing its floor
      gives the same answer.) */
  datatype Entry = Entry(name: string, mtimeMs: Option<int>)

  /** The result of `fs.readdir`. */
  datatype Listing = Listed(entries: seq<Entry>) | ListFailed

  /** The entry is unlinked: its stat succeeded and `stats.mtimeMs < cutoffTime`. */
  predicate Expired(e: Entry, cutoff: int) {
    e.mtimeMs.Some? && e.mtimeMs.value < cutoff
  }

  /** The names whose unlink the sweep issues, in listing order. A failed stat
      skips only its own entry. */
  function Doomed(entries: seq<Entry>, cutoff: int): (r: seq<string>)
    ensures |r| <= |entries|
    ensures forall n :: n in r <==> exists i :: 0 <= i < |entries| && entries[i].name == n && Expired(entries[i], cutoff)
  {
    if |entries| == 0 then []
    else
      var rest := Doomed(entries[1..], cutoff);
      assert forall i :: 1 <= i < |entries| ==> entries[i] == entries[1..][i - 1];
      if Expired(entries[0], cutoff) then [entries[0].name] + rest else rest
  }

  /** The paths the sweep unlinks; a failed `readdir` unlinks nothing. */
  function Sweep(directory: string, listing: Listing, cutoff: int): (r: seq<string>)
    ensures listing.ListFailed? ==> r == []
    ensures listing.Listed? ==> |r| <= |listing.entries|
    ensures listing.Listed? ==> forall n :: Join(directory, n) in r <==> n in Doomed(listing.entries, cutoff)
    // nothing else: every unlinked path is an expired entry of the directory
    ensures listing.Listed? ==> forall p :: p in r ==> exists n :: p == Join(directory, n) && n in Doomed(listing.entries, cutoff)
  {
    match listing
    case ListFailed => []
    case Listed(entries) =>
      var names := Doomed(entries, cutoff);
      var r := seq(|names|, i requires 0 <= i < |names| => Join(directory, names[i]));
      assert forall n :: Join(directory, n) in r ==> n in names by {
        forall n | Join(directory, n) in r
          ensures n in names
        {
          var i :| 0 <= i < |r| && r[i] == Join(directory, n);
          JoinInjective(directory, names[i], n);
        }
      }
      assert forall p :: p in r ==> exists n :: p == Join(directory, n) && n in names by {
        forall p | p in r
          ensures exists n :: p == Join(directory, n) && n in names
        {
          var i :| 0 <= i < |r| && r[i] == p;
          assert p == Join(directory, names[i]) && names[i] in names;
        }
      }
      assert forall n :: n in names ==> Join(directory, n) in r by {
        forall n | n in names
          ensures Join(directory, n) in r
        {
          var i :| 0 <= i < |names| && names[i] == n;
          assert r[i] == Join(directory, n);
        }
      }
      r
  }

  /** `deleteOldRecordings(directory, daysBeforeDelete)` at clock time `now`. */
  function DeleteOldRecordings(now: int, directory: string, daysBeforeDelete: int, listing: Listing): (r: seq<string>)
    ensures listing.ListFailed? ==> r == []
    // a file of the directory is unlinked exactly when its stat succeeded and it
    // was last modified more than `daysBeforeDelete` days before `now`
    ensures listing.Listed? ==> forall n :: Join(directory, n) in r <==>
      exists i :: 0 <= i < |listing.entries| && listing.entries[i].name == n &&
        listing.entries[i].mtimeMs.Some? && listing.entries[i].mtimeMs.value < now - daysBeforeDelete * MsPerDay
    ensures forall p :: p in r ==> InDirectory(directory, p)
  {
    Sweep(directory, listing, Cutoff(now, daysBeforeDelete))
  }

  /** Directory names are unique. */
  predicate DistinctNames(entries: seq<Entry>) {
    forall i, j :: 0 <= i < |entries| && 0 <= j < |entries| && i != j ==> entries[i].name != entries[j].name
  }

  /** The sweep unlinks an entry exactly when its stat succeeded and its
      modification time is before the cutoff; every other entry is kept. */
  lemma SweepExact(directory: string, entries: seq<Entry>, cutoff: int, k: int)
    requires DistinctNames(entries) && 0 <= k < |entries|
    ensures Join(directory, entries[k].name) in Sweep(directory, Listed(entries), cutoff) <==> Expired(entries[k], cutoff)
  {
    var n := entries[k].name;
    if n in Doomed(entries, cutoff) {
      var i :| 0 <= i < |entries| && entries[i].name == n && Expired(entries[i], cutoff);
      assert i == k;
    }
  }

  /** Applies the issued unlinks to a file system; the paths in `failing` are
      the ones whose unlink the system refuses. */
  function ApplyUnlinks(fs: FileStore.FileSystem, paths: seq<string>, failing: set<string>): (r: FileStore.FileSystem)
    ensures forall p :: p in r <==> p in fs && (p !in paths || p in failing)
    ensures forall p :: p in r ==> r[p] == fs[p]
  {
    if |paths| == 0 then fs
    else
      var (next, _) := FileStore.Unlink(fs, paths[0], paths[0] !in failing);
      var r := ApplyUnlinks(next, paths[1..], failing);
      assert forall p :: p in paths <==> p == paths[0] || p in paths[1..];
      r
  }

  /** Applied to the file system: a listed recording disappears exactly when it
      is expired and its unlink succeeds; its bytes are otherwise untouched. */
  lemma SweepOnFileSystem(fs: FileStore.FileSystem, directory: string, entries: seq<Entry>,
                          cutoff: int, failing: set<string>, k: int)
    requires DistinctNames(entries) && 0 <= k < |entries|
    requires Join(directory, entries[k].name) in fs
    ensures var path := Join(directory, entries[k].name);
      var after := ApplyUnlinks(fs, Sweep(directory, Listed(entries), cutoff), failing);
      && (path !in after <==> Expired(entries[k], cutoff) && path !in failing)
      && (path in after ==> after[path] == fs[path])
  {
    SweepExact(directory, entries, cutoff, k);
  }

  /** A sweep touches nothing outside its directory: a path that does not lie in
      it, such as a recording still in the temp directory, keeps its bytes. */
  lemma SweepLeavesOtherDirectories(fs: FileStore.FileSystem, directory: string, listing: Listing,
                                    cutoff: int, failing: set<string>, p: string)
    requires p in fs && !InDirectory(directory, p)
    ensures var after := ApplyUnlinks(fs, Sweep(directory, listing, cutoff), failing);
      p in after && after[p] == fs[p]
  {
    forall n
      ensures p != Join(directory, n)
    {
    }
  }

  /** A failed `readdir` leaves the file system as it was. */
  lemma ListFailureDeletesNothing(fs: FileStore.FileSystem, directory: string, cutoff: int, failing: set<string>)
    ensures ApplyUnlinks(fs, Sweep(directory, ListFailed, cutoff), failing) == fs
  {
  }

  /** With `daysBeforeDelete` = 5, a recording last modified six days ago is
      deleted and one modified four days ago is kept. */
  lemma FiveDayRetention(now: int)
    ensures var entries := [Entry("old.mp4", Some(now - 6 * MsPerDay)), Entry("new.mp4", Some(now - 4 * MsPerDay))];
      && Join("D", "old.mp4") in DeleteOldRecordings(now, "D", 5, Listed(entries))
      && Join("D", "new.mp4") !in DeleteOldRecordings(now, "D", 5, Listed(entries))
  {
    var entries := [Entry("old.mp4", Some(now - 6 * MsPerDay)), Entry("new.mp4", Some(now - 4 * MsPerDay))];
    SweepExact("D", entries, Cutoff(now, 5), 0);
    SweepExact("D", entries, Cutoff(now, 5), 1);
  }
}

=== FILE: scheduler.dfy ===
/** The capture loop of index.js as a step function. The module-level variables
    `currentRecordingProcess` and `tempRecordingPath` become fields of `State`;
    `setTimeout`, `exec` and the stdin write become returned actions; the timer
    firing, the screen lock and unlock, and the exit of an ffmpeg child become
    events. Children are numbered in spawn order.

    An exiting child runs its `close` listeners in registration order: first the
    completion callback `exec` attached at spawn time, then one `stopRecording`
    listener per screen lock received while that child was current. */
module Scheduler {
  import opened Wrappers
  import opened Settings
  import opened Timestamp
  import opened Geometry
  import opened Paths

  /** A running ffmpeg child: the storage path its completion callback captured,
      and how many `stopRecording` close listeners are attached to it. */
  datatype Child = Child(storagePath: string, closeListeners: nat)

  datatype State = State(
    current: Option<nat>,         // currentRecordingProcess (a finished child stays here)
    tempPath: Option<string>,     // tempRecordingPath
    live: map<nat, Child>,        // children that have not exited yet
    nextId: nat
  )

  const Initial: State := State(None, None, map[], 0)

  /** What the ffmpeg command line is built from. */
  datatype Job = Job(size: Size, frameRate: int, bitrate: string, durationSeconds: int, output: string)

  datatype Action =
    | ArmStart(delayMs: int)      // setTimeout(() => startRecording(config), delayMs)
    | Spawn(id: nat, job: Job)    // exec(ffmpegCommand, callback)
    | SendQuit(id: nat)           // stdin.write("q")
    | Move(src: string, dst: string)   // moveRecordingToStorage(src, dst)
    | NullSourceError             // moveRecordingToStorage(null, ...) throws inside the callback

  datatype Event =
    | Timer(now: DateTime, displays: seq<Display>)    // a pending startRecording timer fires
    | Unlock(now: DateTime, displays: seq<Display>)   // powerMonitor "unlock-screen"
    | Lock                                            // powerMonitor "lock-screen"
    | Exit(id: nat, error: bool)                      // child `id` exits; `error` as exec reports it

  datatype Outcome = Outcome(state: State, actions: seq<Action>)

  /** Children are numbered below `nextId`, so a new number is fresh. */
  predicate Inv(st: State) {
    && (forall id :: id in st.live ==> id < st.nextId)
    && (st.current.Some? ==> st.current.value < st.nextId)
  }

  /** A path inside the configured temp directory. */
  predicate InTemp(cfg: Config, p: string) {
    InDirectory(cfg.tempDirectory, p)
  }

  /** `currentRecordingProcess` and `tempRecordingPath` are set together and
      cleared together, and the temp path lies in the temp directory. */
  predicate Coherent(cfg: Config, st: State) {
    && (st.current.None? <==> st.tempPath.None?)
    && (st.tempPath.Some? ==> InTemp(cfg, st.tempPath.value))
  }

  /** Every file the actions move is read from the temp directory. */
  predicate MovesFromTemp(cfg: Config, actions: seq<Action>) {
    forall a :: a in actions && a.Move? ==> InTemp(cfg, a.src)
  }

  /** The destination `stopRecording` computes: the first occurrence of the temp
      directory in the path replaced by the storage directory. */
  function LockDestination(cfg: Config, path: string): string {
    ReplaceFirst(path, cfg.tempDirectory, cfg.storageDirectory)
  }

  /** The recording branch of `startRecording`: both paths built from one
      timestamp, the geometry computed, one child spawned. */
  function Launch(cfg: Config, st: State, now: DateTime, displays: seq<Display>): (o: Outcome)
    ensures |o.actions| == 1 && o.actions[0].Spawn?
    ensures o.actions[0].id == st.nextId && o.state.nextId == st.nextId + 1
    ensures o.state.current == Some(st.nextId)
    ensures o.state.tempPath == Some(o.actions[0].job.output)
    ensures o.actions[0].job.size.width % 2 == 0 && o.actions[0].job.size.height % 2 == 0
    ensures o.actions[0].job.frameRate == cfg.videoQuality.frameRate && o.actions[0].job.bitrate == cfg.videoQuality.bitrate
    ensures o.actions[0].job.durationSeconds == cfg.videoDuration
    // temp and storage paths: the two directories joined with one basename
    ensures o.actions[0].job.output == Join(cfg.tempDirectory, RecordingFileName(now))
    ensures o.state.live == st.live[st.nextId := Child(Join(cfg.storageDirectory, RecordingFileName(now)), 0)]
    ensures Coherent(cfg, o.state)
  {
    var name := RecordingFileName(now);
    var tempPath := Join(cfg.tempDirectory, name);
    var storagePath := Join(cfg.storageDirectory, name);
    var size := ScaledSize(CombinedResolution(displays), cfg.videoQuality.scale);
    var job := Job(size, cfg.videoQuality.frameRate, cfg.videoQuality.bitrate, cfg.videoDuration, tempPath);
    var id := st.nextId;
    Outcome(State(Some(id), Some(tempPath), st.live[id := Child(storagePath, 0)], id + 1), [Spawn(id, job)])
  }

  /** The capture size of a launch is the combined desktop scaled by the
      quality factor and bumped to even numbers, so the contracts of
      `ScaledSize` and `CombinedResolution` carry over to the spawned job.
      (Kept out of `Launch`'s own contract so that the real arithmetic of the
      scaling stays out of every proof about the loop.) */
  lemma LaunchCaptureSize(cfg: Config, st: State, now: DateTime, displays: seq<Display>)
    ensures Launch(cfg, st, now, displays).actions[0].job.size == ScaledSize(CombinedResolution(displays), cfg.videoQuality.scale)
  {
  }

  /** `startRecording(config)` with the clock and the display list it reads. */
  function StartRecording(cfg: Config, st: State, now: DateTime, displays: seq<Display>): (o: Outcome)
    // outside the window or inactive: nothing changes, re-check after videoDuration seconds
    ensures !cfg.active || !IsWithinRecordingHours(now.hour, cfg.startHour, cfg.stopHour) ==>
      o == Outcome(st, [ArmStart(cfg.videoDuration * 1000)])
    // inside: a child is spawned and nothing is re-armed
    ensures cfg.active && IsWithinRecordingHours(now.hour, cfg.startHour, cfg.stopHour) ==>
      o == Launch(cfg, st, now, displays)
    ensures Coherent(cfg, st) ==> Coherent(cfg, o.state) && MovesFromTemp(cfg, o.actions)
  {
    match Decide(cfg.active, cfg.startHour, cfg.stopHour, cfg.videoDuration, now.hour)
    case Skip(delay) => Outcome(st, [ArmStart(delay)])
    case Record => Launch(cfg, st, now, displays)
  }

  /** `stopRecording()` on a screen lock: with a current child, ask it to quit
      and attach a close listener (which never fires if the child has already
      exited); otherwise nothing. */
  function StopRecording(st: State): (o: Outcome)
    ensures st.current.None? ==> o == Outcome(st, [])
    ensures st.current.Some? ==>
      && o.actions == [SendQuit(st.current.value)]
      && o.state.current == st.current && o.state.tempPath == st.tempPath && o.state.nextId == st.nextId
      && o.state.live.Keys == st.live.Keys
      && (forall id :: id in st.live && id != st.current.value ==> o.state.live[id] == st.live[id])
      && (st.current.value in st.live ==>
            o.state.live[st.current.value].closeListeners == st.live[st.current.value].closeListeners + 1
            && o.state.live[st.current.value].storagePath == st.live[st.current.value].storagePath)
  {
    match st.current
    case None => Outcome(st, [])
    case Some(id) =>
      var live := if id in st.live then st.live[id := st.live[id].(closeListeners := st.live[id].closeListeners + 1)] else st.live;
      Outcome(st.(live := live), [SendQuit(id)])
  }

  /** One `stopRecording` close listener: move the current temp file, if any, to
      its lock destination, then clear both module variables. */
  function CloseListener(cfg: Config, st: State): Outcome {
    var moves := match st.tempPath
      case Some(p) => [Move(p, LockDestination(cfg, p))]
      case None => [];
    Outcome(st.(current := None, tempPath := None), moves)
  }

  /** `count` close listeners in a row: only the first finds a temp path to move. */
  function RunCloseListeners(cfg: Config, st: State, count: nat): (o: Outcome)
    ensures count == 0 ==> o == Outcome(st, [])
    ensures count > 0 ==> o.state == st.(current := None, tempPath := None)
    ensures count > 0 && st.tempPath.Some? ==>
      o.actions == [Move(st.tempPath.value, LockDestination(cfg, st.tempPath.value))]
    ensures count > 0 && st.tempPath.None? ==> o.actions == []
    decreases count
  {
    if count == 0 then Outcome(st, [])
    else
      var first := CloseListener(cfg, st);
      var rest := RunCloseListeners(cfg, first.state, count - 1);
      Outcome(rest.state, first.actions + rest.actions)
  }

  /** Child `id` exits. The completion callback runs first: on an error it
      returns at once; otherwise it moves the file named by the module-level
      temp path to the storage path it captured and re-arms after one second.
      With no temp path left, `fs.copyFile(null, ...)` throws, which also skips
      the close listeners still to run. Nothing resets `current` except a close
      listener. */
  function OnExit(cfg: Config, st: State, id: nat, error: bool): (o: Outcome)
    ensures id !in st.live ==> o == Outcome(st, [])
    ensures id in st.live ==> o.state.live == st.live - {id} && o.state.nextId == st.nextId
    // every move reads the module-level temp path
    ensures forall a :: a in o.actions && a.Move? ==> st.tempPath.Some? && a.src == st.tempPath.value
    // an error: no completion move and no re-arm; only a lock's listener may move
    ensures id in st.live && error ==>
      && ArmStart(1000) !in o.actions && NullSourceError !in o.actions
      && (forall a :: a in o.actions ==>
            (st.tempPath.Some? && a == Move(st.tempPath.value, LockDestination(cfg, st.tempPath.value))))
      && (st.live[id].closeListeners == 0 ==> o.actions == [] && o.state.current == st.current && o.state.tempPath == st.tempPath)
    // success: move the temp file to the captured storage path, re-arm after 1000 ms
    ensures id in st.live && !error && st.tempPath.Some? ==>
      && |o.actions| >= 2
      && o.actions[..2] == [Move(st.tempPath.value, st.live[id].storagePath), ArmStart(1000)]
      && (st.live[id].closeListeners == 0 ==>
            |o.actions| == 2 && o.state.current == st.current && o.state.tempPath == st.tempPath)
      // the first lock listener then finds the same temp path and moves it as well
      && (st.live[id].closeListeners > 0 ==>
            o.actions[2..] == [Move(st.tempPath.value, LockDestination(cfg, st.tempPath.value))])
    // success with no temp path: the callback throws before re-arming
    ensures id in st.live && !error && st.tempPath.None? ==> o == Outcome(st.(live := st.live - {id}), [NullSourceError])
    // any close listener clears both variables
    ensures id in st.live && st.live[id].closeListeners > 0 && (error || st.tempPath.Some?) ==>
      o.state.current.None? && o.state.tempPath.None?
    ensures Coherent(cfg, st) ==> Coherent(cfg, o.state) && MovesFromTemp(cfg, o.actions)
  {
    if id !in st.live then Outcome(st, [])
    else
      var child := st.live[id];
      var st1 := st.(live := st.live - {id});
      if error then RunCloseListeners(cfg, st1, child.closeListeners)
      else if st.tempPath.None? then Outcome(st1, [NullSourceError])
      else
        var closed := RunCloseListeners(cfg, st1, child.closeListeners);
        Outcome(closed.state, [Move(st.tempPath.value, child.storagePath), ArmStart(1000)] + closed.actions)
  }

  /** The scheduler's reaction to one event. The unlock handler calls
      `startRecording` exactly as a timer does, with no check for a child that
      is still running. */
  function Step(cfg: Config, st: State, ev: Event): (o: Outcome)
    ensures Inv(st) ==> Inv(o.state)
    ensures st.nextId <= o.state.nextId
    ensures Coherent(cfg, st) ==> Coherent(cfg, o.state) && MovesFromTemp(cfg, o.actions)
  {
    match ev
    case Timer(now, displays) => StartRecording(cfg, st, now, displays)
    case Unlock(now, displays) => StartRecording(cfg, st, now, displays)
    case Lock => StopRecording(st)
    case Exit(id, error) => OnExit(cfg, st, id, error)
  }

  /** Events applied in order; the actions are concatenated. */
  function Run(cfg: Config, st: State, events: seq<Event>): (o: Outcome)
    ensures Inv(st) ==> Inv(o.state)
    // from the initial state, a child is current exactly while a temp path is
    // set, and no event sequence moves a file from outside the temp directory
    ensures Coherent(cfg, st) ==> Coherent(cfg, o.state) && MovesFromTemp(cfg, o.actions)
    decreases |events|
  {
    if |events| == 0 then Outcome(st, [])
    else
      var first := Step(cfg, st, events[0]);
      var rest := Run(cfg, first.state, events[1..]);
      Outcome(rest.state, first.actions + rest.actions)
  }
}

=== FILE: scheduler_facts.dfy ===
/** What the index.js capture loop does over short event sequences, derived
    from the step function: where a finished recording goes, what a screen lock
    does and does not stop, and how overlapping sessions arise. */
module SchedulerFacts {
  import opened Wrappers
  import opened Settings
  import opened Timestamp
  import opened Geometry
  import opened Paths
  import opened Scheduler
  import FileStore

  /** The recording window is open at this clock reading. */
  predicate Open(cfg: Config, now: DateTime) {
    cfg.active && IsWithinRecordingHours(now.hour, cfg.startHour, cfg.stopHour)
  }

  /** Outside the window, or with recording switched off, a timer or an unlock
      changes nothing and only schedules the next check `videoDuration` seconds
      later. */
  lemma ClosedWindowOnlyWaits(cfg: Config, st: State, now: DateTime, displays: seq<Display>)
    requires !Open(cfg, now)
    ensures Step(cfg, st, Timer(now, displays)) == Outcome(st, [ArmStart(cfg.videoDuration * 1000)])
    ensures Step(cfg, st, Unlock(now, displays)) == Outcome(st, [ArmStart(cfg.videoDuration * 1000)])
  {
  }

  /** The lock-screen destination of a fresh temp path is the storage path its
      completion callback captured, as long as the storage directory holds no
      `$` substitution pattern. */
  lemma LockDestinationMatchesCompletion(cfg: Config, st: State, now: DateTime, displays: seq<Display>)
    requires Literal(cfg.storageDirectory)
    ensures var o := Launch(cfg, st, now, displays);
      LockDestination(cfg, o.state.tempPath.value) == o.state.live[st.nextId].storagePath
  {
    ReplaceDirectory(cfg.tempDirectory, cfg.storageDirectory, RecordingFileName(now));
  }

  /** A screen lock with no current child changes nothing and does nothing. */
  lemma LockWithoutChildIsNoOp(cfg: Config, st: State)
    requires st.current.None?
    ensures Step(cfg, st, Lock) == Outcome(st, [])
  {
  }

  /** The state a start leaves behind when the window is open and the
      recording is called `name`. */
  function Started(cfg: Config, st: State, name: string): State {
    State(Some(st.nextId), Some(Join(cfg.tempDirectory, name)),
          st.live[st.nextId := Child(Join(cfg.storageDirectory, name), 0)], st.nextId + 1)
  }

  /** A timer and an unlock in an open window both lead to `Started`. */
  lemma StartedState(cfg: Config, st: State, now: DateTime, displays: seq<Display>)
    requires Open(cfg, now)
    ensures Step(cfg, st, Timer(now, displays)).state == Started(cfg, st, RecordingFileName(now))
    ensures Step(cfg, st, Unlock(now, displays)).state == Started(cfg, st, RecordingFileName(now))
  {
    assert Step(cfg, st, Timer(now, displays)) == Launch(cfg, st, now, displays);
    assert Step(cfg, st, Unlock(now, displays)) == Launch(cfg, st, now, displays);
  }

  /** A lock with a running current child sends `q` and attaches one listener. */
  lemma LockedState(cfg: Config, st: State)
    requires st.current.Some? && st.current.value in st.live
    ensures var id := st.current.value;
      Step(cfg, st, Lock) == Outcome(st.(live := st.live[id := st.live[id].(closeListeners := st.live[id].closeListeners + 1)]), [SendQuit(id)])
  {
  }

  /** A clean exit of a running child while a temp path is set. */
  lemma CleanExit(cfg: Config, st: State, id: nat, tempPath: string, storagePath: string, listeners: nat)
    requires st.tempPath == Some(tempPath) && id in st.live && st.live[id] == Child(storagePath, listeners)
    ensures Step(cfg, st, Exit(id, false)) ==
      if listeners == 0 then
        Outcome(st.(live := st.live - {id}), [Move(tempPath, storagePath), ArmStart(1000)])
      else
        Outcome(st.(live := st.live - {id}, current := None, tempPath := None),
                [Move(tempPath, storagePath), ArmStart(1000), Move(tempPath, LockDestination(cfg, tempPath))])
  {
  }

  /** An exit with an error of a running child while a temp path is set. */
  lemma ErrorExit(cfg: Config, st: State, id: nat, tempPath: string, listeners: nat)
    requires st.tempPath == Some(tempPath) && id in st.live && st.live[id].closeListeners == listeners
    ensures Step(cfg, st, Exit(id, true)) ==
      if listeners == 0 then Outcome(st.(live := st.live - {id}), [])
      else Outcome(st.(live := st.live - {id}, current := None, tempPath := None),
                   [Move(tempPath, LockDestination(cfg, tempPath))])
  {
  }

  /** A session that runs to completion without an error: its temp file is
      moved to the storage directory under the same `recording-<ts>.mp4` name,
      the next start is armed one second later, and the handle of the exited
      child stays in `current`. When copy and unlink succeed, the bytes end up
      in storage only. */
  lemma CompletionDeliversRecording(cfg: Config, st: State, now: DateTime, displays: seq<Display>,
                                    fs: FileStore.FileSystem)
    requires Inv(st) && Open(cfg, now)
    requires cfg.tempDirectory != cfg.storageDirectory
    ensures var name := RecordingFileName(now);
      var tempPath := Join(cfg.tempDirectory, name);
      var storagePath := Join(cfg.storageDirectory, name);
      var s1 := Step(cfg, st, Timer(now, displays)).state;
      var o2 := Step(cfg, s1, Exit(st.nextId, false));
      && o2.actions == [Move(tempPath, storagePath), ArmStart(1000)]
      && o2.state.current == Some(st.nextId)
      && st.nextId !in o2.state.live
      && (tempPath in fs ==>
            var m := FileStore.MoveRecordingToStorage(fs, tempPath, storagePath, true, true);
            tempPath !in m.fs && storagePath in m.fs && m.fs[storagePath] == fs[tempPath])
  {
    var name := RecordingFileName(now);
    var tempPath := Join(cfg.tempDirectory, name);
    var storagePath := Join(cfg.storageDirectory, name);
    JoinDirectoryInjective(cfg.tempDirectory, cfg.storageDirectory, name);
    StartedState(cfg, st, now, displays);
    var s1 := Started(cfg, st, RecordingFileName(now));
    CleanExit(cfg, s1, st.nextId, tempPath, storagePath, 0);
  }

  /** With the temp and storage directories configured to the same place, the
      completion move copies a file onto itself and then unlinks it: a copy the
      system reports as successful loses the recording. */
  lemma SameDirectoriesLoseRecording(cfg: Config, st: State, now: DateTime, displays: seq<Display>,
                                     fs: FileStore.FileSystem)
    requires Inv(st) && Open(cfg, now)
    requires cfg.tempDirectory == cfg.storageDirectory
    requires Join(cfg.tempDirectory, RecordingFileName(now)) in fs
    ensures var s1 := Step(cfg, st, Timer(now, displays)).state;
      var o2 := Step(cfg, s1, Exit(st.nextId, false));
      && o2.actions[0].Move?
      && o2.actions[0].src == o2.actions[0].dst
      && o2.actions[0].src !in FileStore.MoveRecordingToStorage(fs, o2.actions[0].src, o2.actions[0].dst, true, true).fs
  {
    var path := Join(cfg.tempDirectory, RecordingFileName(now));
    StartedState(cfg, st, now, displays);
    var s1 := Started(cfg, st, RecordingFileName(now));
    CleanExit(cfg, s1, st.nextId, path, path, 0);
    FileStore.MoveOntoItselfLosesRecording(fs, path);
  }

  /** An ffmpeg error ends that session's chain of timers: the completion
      callback returns before moving and before arming a timer, so this exit
      arms nothing. */
  lemma ErrorEndsLoop(cfg: Config, st: State, now: DateTime, displays: seq<Display>)
    requires Inv(st) && Open(cfg, now)
    ensures var s1 := Step(cfg, st, Timer(now, displays)).state;
      var o2 := Step(cfg, s1, Exit(st.nextId, true));
      && o2.actions == []
      && o2.state.tempPath == s1.tempPath
      && o2.state.current == Some(st.nextId)
  {
    StartedState(cfg, st, now, displays);
    var s1 := Started(cfg, st, RecordingFileName(now));
    ErrorExit(cfg, s1, st.nextId, s1.tempPath.value, 0);
  }

  /** A lock of a running child whose temp file moves to its own storage path,
      followed by that child's exit: the lock adds one close listener, and the
      exit runs the completion callback before the listener. */
  lemma LockThenExit(cfg: Config, st: State, id: nat, tempPath: string, storagePath: string, error: bool)
    requires st.current == Some(id) && st.tempPath == Some(tempPath)
    requires id in st.live && st.live[id] == Child(storagePath, 0)
    requires LockDestination(cfg, tempPath) == storagePath
    ensures var s2 := st.(live := st.live[id := Child(storagePath, 1)]);
      && Step(cfg, st, Lock) == Outcome(s2, [SendQuit(id)])
      && Step(cfg, s2, Exit(id, error)) ==
           Outcome(st.(current := None, tempPath := None, live := st.live - {id}),
                   if error then [Move(tempPath, storagePath)]
                   else [Move(tempPath, storagePath), ArmStart(1000), Move(tempPath, storagePath)])
  {
    var s2 := st.(live := st.live[id := Child(storagePath, 1)]);
    LockedState(cfg, st);
    assert s2.live - {id} == st.live - {id};
    if error {
      ErrorExit(cfg, s2, id, tempPath, 1);
    } else {
      CleanExit(cfg, s2, id, tempPath, storagePath, 1);
    }
  }

  /** A screen lock during a session whose ffmpeg then quits cleanly: the
      completion callback runs before the lock's close listener, so the file is
      moved twice to the same destination, both variables are cleared, and the
      one-second re-arm is still issued: capture resumes while the screen is
      locked. */
  lemma LockedSessionKeepsLooping(cfg: Config, st: State, name: string)
    requires Inv(st)
    requires Literal(cfg.storageDirectory)
    ensures var tempPath := Join(cfg.tempDirectory, name);
      var storagePath := Join(cfg.storageDirectory, name);
      var s1 := Started(cfg, st, name);
      var s2 := s1.(live := st.live[st.nextId := Child(storagePath, 1)]);
      && Step(cfg, s1, Lock) == Outcome(s2, [SendQuit(st.nextId)])
      && Step(cfg, s2, Exit(st.nextId, false)) ==
           Outcome(State(None, None, st.live, st.nextId + 1),
                   [Move(tempPath, storagePath), ArmStart(1000), Move(tempPath, storagePath)])
  {
    var s1 := Started(cfg, st, name);
    ReplaceDirectory(cfg.tempDirectory, cfg.storageDirectory, name);
    LockThenExit(cfg, s1, st.nextId, Join(cfg.tempDirectory, name), Join(cfg.storageDirectory, name), false);
    assert s1.live - {st.nextId} == st.live;
  }

  /** A screen lock during a session whose ffmpeg exits with an error: only
      the lock's close listener moves the file, and no timer is armed. */
  lemma LockedErrorExitWaitsForUnlock(cfg: Config, st: State, name: string)
    requires Inv(st)
    requires Literal(cfg.storageDirectory)
    ensures var tempPath := Join(cfg.tempDirectory, name);
      var storagePath := Join(cfg.storageDirectory, name);
      var s1 := Started(cfg, st, name);
      var s2 := s1.(live := st.live[st.nextId := Child(storagePath, 1)]);
      && Step(cfg, s1, Lock) == Outcome(s2, [SendQuit(st.nextId)])
      && Step(cfg, s2, Exit(st.nextId, true)) ==
           Outcome(State(None, None, st.live, st.nextId + 1), [Move(tempPath, storagePath)])
  {
    var s1 := Started(cfg, st, name);
    ReplaceDirectory(cfg.tempDirectory, cfg.storageDirectory, name);
    LockThenExit(cfg, s1, st.nextId, Join(cfg.tempDirectory, name), Join(cfg.storageDirectory, name), true);
    assert s1.live - {st.nextId} == st.live;
  }

  /** Unlock starts a session without looking for one in progress: in an open
      window an unlock spawns a new child whatever is running, the running
      children stay live, and the new one joins them as current. With one
      session running, two are running after the unlock, so at most one session
      at a time is not an invariant of this loop. */
  lemma UnlockStartsSecondSession(cfg: Config, st: State, now: DateTime, displays: seq<Display>)
    requires Inv(st) && Open(cfg, now)
    ensures var o := Step(cfg, st, Unlock(now, displays));
      && |o.actions| == 1 && o.actions[0].Spawn? && o.actions[0].id == st.nextId
      && o.state.live.Keys == st.live.Keys + {st.nextId}
      && |o.state.live| == |st.live| + 1
      && o.state.current == Some(st.nextId)
  {
    var o := Launch(cfg, st, now, displays);
    assert Step(cfg, st, Unlock(now, displays)) == o;
    assert st.nextId !in st.live;
  }

  /** With two sessions overlapping, the first one to finish moves the SECOND
      session's temp file (the callback reads the module-level temp path) under
      the FIRST session's name, a different name when the two starts fall in
      different seconds. */
  lemma OverlapMovesWrongFile(cfg: Config, t1: DateTime, t2: DateTime, displays: seq<Display>)
    requires Open(cfg, t1) && Open(cfg, t2) && Valid(t1) && Valid(t2) && t1 != t2
    ensures var s1 := Step(cfg, Initial, Timer(t1, displays)).state;
      var s2 := Step(cfg, s1, Unlock(t2, displays)).state;
      var o3 := Step(cfg, s2, Exit(0, false));
      && o3.actions == [Move(Join(cfg.tempDirectory, RecordingFileName(t2)),
                             Join(cfg.storageDirectory, RecordingFileName(t1))), ArmStart(1000)]
      && RecordingFileName(t1) != RecordingFileName(t2)
  {
    var storage1 := Join(cfg.storageDirectory, RecordingFileName(t1));
    var temp2 := Join(cfg.tempDirectory, RecordingFileName(t2));
    var s1 := Started(cfg, Initial, RecordingFileName(t1));
    var s2 := Started(cfg, s1, RecordingFileName(t2));
    assert Step(cfg, Initial, Timer(t1, displays)).state == s1 by {
      StartedState(cfg, Initial, t1, displays);
    }
    assert Step(cfg, s1, Unlock(t2, displays)).state == s2 by {
      StartedState(cfg, s1, t2, displays);
    }
    assert Step(cfg, s2, Exit(0, false)).actions == [Move(temp2, storage1), ArmStart(1000)] by {
      assert s2.live[0] == Child(storage1, 0);
      CleanExit(cfg, s2, 0, temp2, storage1, 0);
    }
    RecordingFileNameInjective(t1, t2);
  }

  /** Lock during one session, unlock into a second, and the first exits
      cleanly: its close listener clears the temp path the second session set,
      so when the second exits cleanly its callback has no path to move and
      throws before re-arming. The sessions' recordings are called `n1` and
      `n2`; `StartedState` gives the timer and unlock steps that reach `s1` and
      `s3`. */
  lemma OverlapAfterLockThrows(cfg: Config, n1: string, n2: string)
    ensures var s1 := Started(cfg, Initial, n1);
      var s2 := s1.(live := map[0 := Child(Join(cfg.storageDirectory, n1), 1)]);
      var s3 := Started(cfg, s2, n2);
      var s4 := State(None, None, map[1 := Child(Join(cfg.storageDirectory, n2), 0)], 2);
      && Step(cfg, s1, Lock).state == s2
      && Step(cfg, s3, Exit(0, false)).state == s4
      && Step(cfg, s4, Exit(1, false)) == Outcome(s4.(live := map[]), [NullSourceError])
  {
    var storage1 := Join(cfg.storageDirectory, n1);
    var storage2 := Join(cfg.storageDirectory, n2);
    var temp2 := Join(cfg.tempDirectory, n2);
    var s1 := Started(cfg, Initial, n1);
    var s2 := s1.(live := map[0 := Child(storage1, 1)]);
    var s3 := Started(cfg, s2, n2);
    var s4 := State(None, None, map[1 := Child(storage2, 0)], 2);
    assert Step(cfg, s1, Lock).state == s2 by {
      LockedState(cfg, s1);
    }
    assert Step(cfg, s3, Exit(0, false)).state == s4 by {
      assert s3.live[0] == Child(storage1, 1);
      assert s3.live - {0} == map[1 := Child(storage2, 0)];
      CleanExit(cfg, s3, 0, temp2, storage1, 1);
    }
    assert Step(cfg, s4, Exit(1, false)) == Outcome(s4.(live := map[]), [NullSourceError]) by {
      assert s4.live - {1} == map[];
    }
  }
}

=== FILE: settings.dfy ===
/** The capture settings of index.js, their first-run defaults, the active-hours
    window test and the decision taken at the top of every `startRecording` call. */
module Settings {

  /** The `videoQuality` block of the configuration file. */
  datatype Quality = Quality(scale: real, frameRate: int, bitrate: string)

  /** One snapshot of the configuration file (index.js). */
  datatype Config = Config(
    videoDuration: int,        // seconds per recording, also the re-check delay when idle
    tempDirectory: string,     // where ffmpeg writes
    storageDirectory: string,  // where finished recordings are moved
    startHour: int,
    stopHour: int,
    active: bool,
    daysBeforeDelete: int,
    videoQuality: Quality
  )

  /** The configuration written on first run when no configuration file exists. */
  const DefaultConfig: Config := Config(
    300,
    "\\\\server\\path\\to\\temp",
    "\\\\server\\path\\to\\final",
    0,
    24,
    true,
    5,
    Quality(0.35, 5, "100k")
  )

  /** The half-open same-day window [startHour, stopHour) applied to the local hour. */
  predicate IsWithinRecordingHours(hour: int, startHour: int, stopHour: int) {
    startHour <= hour < stopHour
  }

  /** What the guard of `startRecording` decides: record now, or skip and call
      `startRecording` again after `recheckMs` milliseconds. */
  datatype Decision = Record | Skip(recheckMs: int)

  function Decide(active: bool, startHour: int, stopHour: int, videoDuration: int, hour: int): (d: Decision)
    ensures d.Record? <==> active && startHour <= hour < stopHour
    ensures d.Skip? ==> d.recheckMs == videoDuration * 1000
  {
    if !active || !IsWithinRecordingHours(hour, startHour, stopHour) then
      Skip(videoDuration * 1000)
    else
      Record
  }

  /** With the default window 0..24 every hour a clock can show is inside it,
      so an active default configuration records around the clock. */
  lemma DefaultWindowCoversEveryHour(hour: int)
    requires 0 <= hour < 24
    ensures IsWithinRecordingHours(hour, DefaultConfig.startHour, DefaultConfig.stopHour)
    ensures Decide(DefaultConfig.active, DefaultConfig.startHour, DefaultConfig.stopHour,
                   DefaultConfig.videoDuration, hour) == Record
  {
  }

  /** A window whose start is not before its stop admits no hour at all: the
      test does not wrap around midnight. */
  lemma EmptyWindowNeverRecords(active: bool, startHour: int, stopHour: int, videoDuration: int, hour: int)
    requires startHour >= stopHour
    ensures !IsWithinRecordingHours(hour, startHour, stopHour)
    ensures Decide(active, startHour, stopHour, videoDuration, hour) == Skip(videoDuration * 1000)
  {
  }

  /** An inactive configuration never records, whatever the hour. */
  lemma InactiveNeverRecords(startHour: int, stopHour: int, videoDuration: int, hour: int)
    ensures Decide(false, startHour, stopHour, videoDuration, hour) == Skip(videoDuration * 1000)
  {
  }

  /** The window 8..18 with a five-minute duration: at 09:00 a session starts,
      at 20:00 the next check comes 300 000 ms later. */
  lemma OfficeHoursScenario()
    ensures Decide(true, 8, 18, 300, 9) == Record
    ensures Decide(true, 8, 18, 300, 20) == Skip(300000)
    ensures Decide(true, 8, 18, 300, 8) == Record
    ensures Decide(true, 8, 18, 300, 18) == Skip(300000)
  {
  }
}

=== FILE: startup.dfy ===
/** What each variant does when the application is ready, as far as the
    capture core is concerned: the retention sweep cadence and the first
    `startRecording` call. */
module Startup {
  import opened Retention

  datatype Variant = Current | Legacy   // index.js | background.js

  datatype BootAction =
    | SweepNow(directory: string, daysBeforeDelete: int)                     // deleteOldRecordings(...)
    | SweepEvery(periodMs: int, directory: string, daysBeforeDelete: int)    // setInterval(deleteOldRecordings, periodMs)
    | StartNow                                                               // startRecording(config)

  /** The boot sequence in program order. index.js sweeps its storage
      directory once at once and then daily; background.js only arms the daily
      sweep of its recording directory. */
  function Boot(v: Variant, directory: string, daysBeforeDelete: int): (r: seq<BootAction>)
    // the loop is started last, right after the daily sweep is armed
    ensures |r| >= 2 && r[|r| - 1] == StartNow
    ensures r[|r| - 2] == SweepEvery(MsPerDay, directory, daysBeforeDelete)
    // only index.js sweeps at launch
    ensures (exists i :: 0 <= i < |r| && r[i].SweepNow?) <==> v == Current
    // the launch sweep is the first action and sweeps what the daily one sweeps
    ensures v == Current ==> r[0] == SweepNow(directory, daysBeforeDelete)
    ensures forall a :: a in r && a.SweepNow? ==> a == SweepNow(directory, daysBeforeDelete)
    // `startRecording` is called exactly once: nothing else is in the sequence
    ensures |r| == if v == Current then 3 else 2
    ensures forall i :: 0 <= i < |r| - 1 ==> r[i] != StartNow
  {
    match v
    case Current =>
      var r := [SweepNow(directory, daysBeforeDelete), SweepEvery(MsPerDay, directory, daysBeforeDelete), StartNow];
      assert r[0].SweepNow?;
      r
    case Legacy => [SweepEvery(MsPerDay, directory, daysBeforeDelete), StartNow]
  }

  predicate IsSweepEvery(a: BootAction) {
    a.SweepEvery?
  }

  /** The period of the first interval the boot sequence arms, if any. */
  function IntervalPeriod(boot: seq<BootAction>): (r: int)
    requires exists i :: 0 <= i < |boot| && IsSweepEvery(boot[i])
    ensures exists i :: 0 <= i < |boot| && IsSweepEvery(boot[i]) && boot[i].periodMs == r
  {
    if IsSweepEvery(boot[0]) then boot[0].periodMs
    else
      assert exists i :: 0 <= i < |boot[1..]| && IsSweepEvery(boot[1..][i]) by {
        var i :| 0 <= i < |boot| && IsSweepEvery(boot[i]);
        assert i != 0;
        assert boot[1..][i - 1] == boot[i];
      }
      IntervalPeriod(boot[1..])
  }

  /** When, in milliseconds after launch, sweep number `n` (from 0) runs. */
  function SweepTime(boot: seq<BootAction>, n: nat): int
    requires exists i :: 0 <= i < |boot| && IsSweepEvery(boot[i])
  {
    var period := IntervalPeriod(boot);
    if exists i :: 0 <= i < |boot| && boot[i].SweepNow? then n * period else (n + 1) * period
  }

  /** index.js: sweeps at launch and then every 86 400 000 ms. */
  lemma CurrentSweepSchedule(directory: string, days: int, n: nat)
    ensures var boot := Boot(Current, directory, days);
      (exists i :: 0 <= i < |boot| && IsSweepEvery(boot[i])) && SweepTime(boot, n) == n * MsPerDay
  {
    var boot := Boot(Current, directory, days);
    assert IsSweepEvery(boot[1]);
    assert boot[0].SweepNow?;
  }

  /** background.js: no sweep at launch; the first one runs a day later. */
  lemma LegacySweepSchedule(directory: string, days: int, n: nat)
    ensures var boot := Boot(Legacy, directory, days);
      (exists i :: 0 <= i < |boot| && IsSweepEvery(boot[i])) && SweepTime(boot, n) == (n + 1) * MsPerDay
  {
    var boot := Boot(Legacy, directory, days);
    assert IsSweepEvery(boot[0]);
  }
}

=== FILE: timestamp.dfy ===
/** `getFormattedDateTime` of index.js and background.js: the local clock
    written as `Y-MM-DD_HH-MM-SS`, which names every recording. */
module Timestamp {
  import opened Wrappers

  /** The fields `Date` hands back: full year, month 1..12 (`getMonth() + 1`),
      day of month, hours, minutes, seconds. */
  datatype DateTime = DateTime(year: nat, month: nat, day: nat, hour: nat, minute: nat, second: nat)

  /** What a real clock can show. */
  predicate Valid(t: DateTime) {
    && 1 <= t.month <= 12
    && 1 <= t.day <= 31
    && t.hour < 24
    && t.minute < 60
    && t.second < 60
  }

  predicate IsDigit(c: char) {
    '0' <= c <= '9'
  }

  predicate AllDigits(s: string) {
    forall i :: 0 <= i < |s| ==> IsDigit(s[i])
  }

  function Digit(d: nat): (c: char)
    requires d < 10
    ensures IsDigit(c)
  {
    (d + '0' as int) as char
  }

  function DigitValue(c: char): (d: nat)
    requires IsDigit(c)
    ensures d < 10 && Digit(d) == c
  {
    c as int - '0' as int
  }

  /** `String(n)` for a non-negative integer: its decimal digits, no leading zero. */
  function DecimalString(n: nat): (s: string)
    ensures 1 <= |s| && AllDigits(s)
    ensures n < 10 <==> |s| == 1
    ensures n >= 10 ==> s[0] != '0'
  {
    if n < 10 then [Digit(n)] else DecimalString(n / 10) + [Digit(n % 10)]
  }

  /** The number a string of decimal digits denotes. */
  function DecimalValue(s: string): nat
    requires AllDigits(s)
  {
    if |s| == 0 then 0 else DecimalValue(s[..|s| - 1]) * 10 + DigitValue(s[|s| - 1])
  }

  /** Reading the decimal string of `n` back gives `n`. */
  lemma {:induction false} DecimalRoundTrip(n: nat)
    ensures DecimalValue(DecimalString(n)) == n
  {
    var s := DecimalString(n);
    if n >= 10 {
      DecimalRoundTrip(n / 10);
      assert s[..|s| - 1] == DecimalString(n / 10);
    }
  }

  /** `s.padStart(2, "0")`: left-pad with zeros to length two, never truncate. */
  function PadStart2(s: string): (r: string)
    ensures |r| == if |s| >= 2 then |s| else 2
    ensures r[|r| - |s|..] == s
    ensures forall i :: 0 <= i < |r| - |s| ==> r[i] == '0'
  {
    if |s| >= 2 then s else seq(2 - |s|, _ => '0') + s
  }

  /** `String(n).padStart(2, "0")` */
  function TwoDigits(n: nat): string {
    PadStart2(DecimalString(n))
  }

  /** Below 100 the padded string is exactly the tens digit then the units digit. */
  lemma TwoDigitsShape(n: nat)
    requires n < 100
    ensures TwoDigits(n) == [Digit(n / 10), Digit(n % 10)]
  {
    if n >= 10 {
      assert DecimalString(n / 10) == [Digit(n / 10)];
    }
  }

  /** The value of a two-character digit field. */
  function Value2(a: char, b: char): nat
    requires IsDigit(a) && IsDigit(b)
  {
    DigitValue(a) * 10 + DigitValue(b)
  }

  /** `getFormattedDateTime()`: year, then month, day, hours, minutes, seconds,
      each padded to two digits, as `Y-MM-DD_HH-MM-SS`. */
  function Format(t: DateTime): (r: string)
    // with every field below 100: the year, then the fixed fifteen-character
    // tail `-MM-DD_HH-MM-SS` written digit by digit
    ensures Fits(t) ==>
      r == DecimalString(t.year) +
           ['-', Digit(t.month / 10), Digit(t.month % 10), '-', Digit(t.day / 10), Digit(t.day % 10), '_',
            Digit(t.hour / 10), Digit(t.hour % 10), '-', Digit(t.minute / 10), Digit(t.minute % 10), '-',
            Digit(t.second / 10), Digit(t.second % 10)]
  {
    var r := DecimalString(t.year) + "-" + TwoDigits(t.month) + "-" + TwoDigits(t.day) + "_"
      + TwoDigits(t.hour) + "-" + TwoDigits(t.minute) + "-" + TwoDigits(t.second);
    if Fits(t) then
      TwoDigitsShape(t.month);
      TwoDigitsShape(t.day);
      TwoDigitsShape(t.hour);
      TwoDigitsShape(t.minute);
      TwoDigitsShape(t.second);
      Flatten(DecimalString(t.year), Digit(t.month / 10), Digit(t.month % 10), Digit(t.day / 10), Digit(t.day % 10),
              Digit(t.hour / 10), Digit(t.hour % 10), Digit(t.minute / 10), Digit(t.minute % 10),
              Digit(t.second / 10), Digit(t.second % 10));
      r
    else r
  }

  /** Every field below 100, which `Valid` implies. */
  predicate Fits(t: DateTime) {
    t.month < 100 && t.day < 100 && t.hour < 100 && t.minute < 100 && t.second < 100
  }

  /** The fixed-width tail `-MM-DD_HH-MM-SS` has its separators and digits in place. */
  predicate TailShape(r: string) {
    && |r| == 15
    && r[0] == '-' && r[3] == '-' && r[6] == '_' && r[9] == '-' && r[12] == '-'
    && IsDigit(r[1]) && IsDigit(r[2]) && IsDigit(r[4]) && IsDigit(r[5])
    && IsDigit(r[7]) && IsDigit(r[8]) && IsDigit(r[10]) && IsDigit(r[11])
    && IsDigit(r[13]) && IsDigit(r[14])
  }

  /** Reads a timestamp back: the last fifteen characters are the fixed-width
      tail, everything before them is the year. */
  function Parse(s: string): Option<DateTime> {
    if |s| < 16 then None
    else
      var y := s[..|s| - 15];
      var r := s[|s| - 15..];
      if AllDigits(y) && TailShape(r) then
        Some(DateTime(DecimalValue(y), Value2(r[1], r[2]), Value2(r[4], r[5]),
                      Value2(r[7], r[8]), Value2(r[10], r[11]), Value2(r[13], r[14])))
      else None
  }

  lemma Value2OfDigits(n: nat)
    requires n < 100
    ensures Value2(Digit(n / 10), Digit(n % 10)) == n
  {
  }

  /** Parsing splits a digit string followed by a well-shaped tail at the tail. */
  lemma ParseSplit(y: string, tail: string)
    requires 1 <= |y| && AllDigits(y) && TailShape(tail)
    ensures Parse(y + tail) == Some(DateTime(DecimalValue(y), Value2(tail[1], tail[2]), Value2(tail[4], tail[5]),
                                             Value2(tail[7], tail[8]), Value2(tail[10], tail[11]), Value2(tail[13], tail[14])))
  {
    var s := y + tail;
    assert s[..|s| - 15] == y;
    assert s[|s| - 15..] == tail;
  }

  /** The year followed by five two-character fields and their separators is
      the year followed by one fifteen-character tail. */
  lemma Flatten(y: string, a0: char, a1: char, b0: char, b1: char, c0: char, c1: char,
                d0: char, d1: char, e0: char, e1: char)
    ensures y + "-" + [a0, a1] + "-" + [b0, b1] + "_" + [c0, c1] + "-" + [d0, d1] + "-" + [e0, e1]
         == y + ['-', a0, a1, '-', b0, b1, '_', c0, c1, '-', d0, d1, '-', e0, e1]
  {
  }

  /** A formatted clock parses back to the same clock: no field is lost or
      shifted by the padding. */
  lemma ParseFormat(t: DateTime)
    requires Fits(t)
    ensures Parse(Format(t)) == Some(t)
  {
    var tail :=
      ['-', Digit(t.month / 10), Digit(t.month % 10), '-', Digit(t.day / 10), Digit(t.day % 10), '_',
       Digit(t.hour / 10), Digit(t.hour % 10), '-', Digit(t.minute / 10), Digit(t.minute % 10), '-',
       Digit(t.second / 10), Digit(t.second % 10)];
    ParseSplit(DecimalString(t.year), tail);
    DecimalRoundTrip(t.year);
    Value2OfDigits(t.month);
    Value2OfDigits(t.day);
    Value2OfDigits(t.hour);
    Value2OfDigits(t.minute);
    Value2OfDigits(t.second);
  }

  /** Each formatted field is exactly two characters long. */
  lemma FormatLength(t: DateTime)
    requires Fits(t)
    ensures |Format(t)| == |DecimalString(t.year)| + 15
  {
  }

  /** Two clock readings that differ in any field give different strings; two
      readings within the same second give the same one. */
  lemma FormatInjective(a: DateTime, b: DateTime)
    requires Valid(a) && Valid(b)
    ensures Format(a) == Format(b) <==> a == b
  {
    if Format(a) == Format(b) {
      ParseFormat(a);
      ParseFormat(b);
    }
  }

  /** `recording-${timestamp}.mp4`, the basename shared by the temp and storage paths. */
  function RecordingFileName(t: DateTime): string {
    "recording-" + Format(t) + ".mp4"
  }

  /** Distinct clock readings name distinct recordings. */
  lemma RecordingFileNameInjective(a: DateTime, b: DateTime)
    requires Valid(a) && Valid(b)
    ensures RecordingFileName(a) == RecordingFileName(b) <==> a == b
  {
    if RecordingFileName(a) == RecordingFileName(b) {
      var fa := Format(a);
      var fb := Format(b);
      assert RecordingFileName(a) == "recording-" + fa + ".mp4";
      assert |fa| == |fb|;
      assert fa == RecordingFileName(a)[10..|RecordingFileName(a)| - 4];
      assert fb == RecordingFileName(b)[10..|RecordingFileName(b)| - 4];
      FormatInjective(a, b);
    }
  }
}

=== FILE: wrappers.dfy ===
/** The Some/None datatype used wherever the program holds a value that may be
    null (a process handle, a path) or an operation may produce nothing. */
module Wrappers {

  datatype Option<+T> = None | Some(value: T)
}
